=== FILE: README.md ===
# ISP dashboard ledger rules in Dafny

This project models the business rules of an ISP administration dashboard.
In the dashboard's code those rules sit in React event handlers over in-memory arrays;
here they are pure functions over sequences of immutable records:

- **Payments.**
  - Manual entry and payment prompts, both on the payment screen and in its refactored dialogs.
  - Required-field guards.
  - Sequence-numbered ids `PAY-NNN` and default invoice ids `INV-NNN`, zero-padded to three digits.
  - The initial status each creation path gives a record.
  - The synthesized `<METHOD>-PENDING-<timestamp>` reference of a prompt, where `<METHOD>` is the upper-cased service (MPESA, AIRTEL or TKASH).
  - The search and method filter of the payment table, and the totals above it.
- **M-PESA STK Push.**
  - The service stub's canned responses.
  - The quick STK Push dialog. Its steps are modelled as a trace of effects: busy flag, provider call, record creation, notification, form reset and dialog close.
- **Reports.** The overdue priority thresholds and the three outstanding-payment figures.
- **Billing.** Monthly bill generation, the invoice status filter, the status-partitioned totals and the reminder action.
- **Customers.** Adding a customer, and the customer search and status filter.
- **Packages.** Adding a package, switching a package active or inactive, the toggle notification and the package statistics.

Modules follow the program's structure:

- `Wrappers`: the `Option` type.
- `Strings`: decimal rendering and parsing, `padStart`, ids, ASCII case mapping, `includes`.
- `Seqs`: `filter`, `reduce` as a sum, and the subsequence relation.
- `Ids`: the two id formats.
- `Payments`: the record, the shared record builders `MakeManual` and `MakePrompt`, the filter and the totals.
- `PaymentTracking`: the screen's inline handlers.
- `AddPaymentDialog` and `PaymentPromptDialog`: the refactored dialogs. Each is proved to agree with the screen's handler.
- `MpesaService`, `QuickSTKPushDialog`, `Reports`, `Billing`, `Customers` and `Packages`.

Clocks become parameters: `today` for the ISO date, `now` for `Date.now()`.
Toasts become a returned `Notice` tag.
Callbacks such as `onAddPayment` become the sequence of records a dialog hands back, and `onClose` a flag in the dialog's result.
The form a handler leaves behind and whether its dialog stays open are part of each handler's result.
The awaited provider call becomes a function parameter `STKPushRequest -> Reply`, where a reply either answers or throws.

Three behaviours of the code are worth stating plainly:

- **Amount positivity.** Only emptiness of the amount field is checked, so "0" is accepted.
- **Provider failure.** The quick STK Push dialog creates no record when the provider throws (`QuickSTKPushDialog.FailureLeavesLedger`), and it keeps the typed fields and stays open.
- **Prompts.** The prompt handlers on the payment screen and in the prompt dialog never call a provider: they record a pending payment with a synthesized reference. Only the quick STK Push dialog calls the service.

## Model

| member | source | states |
|---|---|---|
| Strings.NatToDecimal | src/components/PaymentTracking.tsx:93 | `String(n)` is a non-empty digit string whose first digit is 0 only for n = 0 |
| Strings.ParseDecimal | src/components/PaymentTracking.tsx:95 | `parseInt` of a digit string is below 10 to the number of digits |
| Strings.DecimalRoundTrip | src/components/PaymentTracking.tsx:93 | parsing the rendering of n gives n back |
| Strings.DecimalInjective | src/components/PaymentTracking.tsx:93 | two numbers render alike exactly when they are equal |
| Strings.RenderUndoesParse | src/components/PackageManagement.tsx:88 | a typed number without a leading zero is exactly the rendering of its parsed value |
| Strings.ParseInjectiveSameLength | src/components/PackageManagement.tsx:88 | two digit strings of equal length and equal value are the same string |
| Strings.PadStart | src/components/PaymentTracking.tsx:93 | `padStart` reaches the width, ends with the original string and fills only the front |
| Strings.LeadingZerosIgnored | src/components/PaymentTracking.tsx:93 | zero padding does not change the parsed value |
| Strings.Pad3RoundTrip | src/components/PaymentTracking.tsx:93 | the padded sequence number has at least three digits and parses back to n |
| Strings.Pad3Width | src/components/PaymentTracking.tsx:93 | the padded number is exactly three characters iff n < 1000; larger numbers are not truncated |
| Strings.SequenceNumber | src/components/PaymentTracking.tsx:93 | a number is read from an id only when the id starts with the prefix and has more after it |
| Strings.SeqIdRoundTrip | src/components/PaymentTracking.tsx:93 | the number read back from `prefix + pad3(n)` is n |
| Strings.SeqIdInjective | src/components/PaymentTracking.tsx:93 | distinct sequence numbers give distinct ids |
| Strings.ToLower | src/components/PaymentTracking.tsx:205 | lower-casing keeps the length, leaves every character but an upper-case ASCII letter as it is, and turns each such letter into the lower-case letter that upper-cases back to it |
| Strings.ToUpper | src/components/PaymentTracking.tsx:135 | upper-casing keeps the length, leaves every character but a lower-case ASCII letter as it is, and turns each such letter into the upper-case letter that lower-cases back to it |
| Strings.LowerForgetsCase | src/components/PaymentTracking.tsx:205-206 | lower-casing is idempotent and erases an earlier upper-casing |
| Strings.ContainsIffOccurs | src/components/PaymentTracking.tsx:205 | `includes` holds exactly when the term occurs at some position |
| Strings.ContainsPart | src/services/mpesaService.ts:33 | a string built around a part contains that part |
| Strings.ContainsEmpty | src/components/PaymentTracking.tsx:205-206 | every string contains the empty search term |
| Seqs.Filter | src/components/PaymentTracking.tsx:204 | `filter` keeps only elements of the input that satisfy the predicate, and never more of them |
| Seqs.FilterMultiplicity | src/components/PaymentTracking.tsx:204-211 | `filter` keeps every satisfying element as often as it occurs and drops every other one |
| Seqs.FilterIsSubsequence | src/components/PaymentTracking.tsx:204-211 | `filter` preserves order |
| Seqs.FilterFilter | src/components/CustomerManagement.tsx:113-121 | filtering twice is filtering once by the conjunction |
| Seqs.SumPartition | src/components/PaymentTracking.tsx:213-218 | the sum over kept elements plus the sum over dropped ones is the whole sum |
| Seqs.FilterCountPartition | src/components/PackageManagement.tsx:265-273 | the kept elements and the dropped ones together are as many as the input |
| Seqs.FilterReplaceOne | src/components/PackageManagement.tsx:109-112 | replacing one element moves the kept count only by that element |
| Ids.FourthIds | src/components/payment/AddPaymentDialog.tsx:49 | the fourth record's ids are `PAY-004` and `INV-004` |
| Ids.PaymentAndInvoiceIdsDiffer | src/components/PaymentTracking.tsx:93-99 | no payment id equals an invoice id, and neither parses as a sequence number under the other's prefix |
| Payments.MethodTags | src/components/PaymentTracking.tsx:135 | the upper-cased method names are MPESA, AIRTEL and TKASH |
| Payments.PromptReference | src/components/PaymentTracking.tsx:135 | the prompt reference starts with the service tag and `-PENDING-`, and the timestamp reads back from its tail |
| Payments.PromptReferenceInjective | src/components/PaymentTracking.tsx:135 | through one service, references agree iff the timestamps agree |
| Payments.MakeManual | src/components/PaymentTracking.tsx:92-101 | a manual record is completed; its id is `PAY-` with count + 1 padded to three digits, and reads back as count + 1; the typed invoice id is kept, and an empty one defaults to the `INV-` id with the same padded number; the other fields are copied and the amount is parsed |
| Payments.MakePrompt | src/components/payment/PaymentPromptDialog.tsx:49-58 | a prompt record is pending; its method is a mobile-money service; its id is the padded `PAY-` id for count + 1 and an empty invoice id defaults to the padded `INV-` id; its reference is the `<METHOD>-PENDING-` reference for the clock reading `now` |
| Payments.PromptRecordIgnoresPhone | src/components/PaymentTracking.tsx:120-139 | the created record does not depend on the phone number |
| Payments.DefaultInvoiceMatchesId | src/components/PaymentTracking.tsx:93-99 | with no typed invoice id, the id and the invoice id share the sequence number |
| Payments.WellNumberedIdsDistinct | src/components/PaymentTracking.tsx:93 | a ledger numbered 1..n by position has pairwise distinct ids |
| Payments.AppendKeepsNumbering | src/components/PaymentTracking.tsx:103 | appending the record numbered n + 1 keeps the ledger numbered by position |
| Payments.FilteredPayments | src/components/PaymentTracking.tsx:204-211 | the table shows an order-preserving subsequence; a record is shown iff its lower-cased name or reference contains the lower-cased term and the method filter is "all" or its method; it is shown as often as it occurs; an empty term with "all" shows the whole ledger |
| Payments.UnfilteredShowsAll | src/components/PaymentTracking.tsx:204-211 | an empty term with "all" filters nothing out |
| Payments.SearchIgnoresCase | src/components/PaymentTracking.tsx:205-206 | an upper-cased term shows the same rows |
| Payments.TotalAmount | src/components/PaymentTracking.tsx:213 | the collected total is the sum of the records' amounts and is never negative |
| Payments.MethodTotal | src/components/PaymentTracking.tsx:214-218 | a per-method total is the collected total of the records with that method, between zero and the ledger's total |
| Payments.AppendUpdatesTotals | src/components/PaymentTracking.tsx:213-218 | recording one more payment raises the total by its amount and changes only its own method's total, by the same amount |
| Payments.TotalsPartitionByMethod | src/components/PaymentTracking.tsx:213-218 | with an empty term and "all", the total is the sum of the five per-method totals |
| Payments.FiveWaySplit | src/components/PaymentTracking.tsx:214-218 | the five method filters partition any sum of amounts |
| PaymentTracking.AddPayment | src/components/PaymentTracking.tsx:82-117 | a form missing name, amount or reference leaves the ledger, the form and the dialog unchanged; otherwise exactly one completed record is appended, built by `MakeManual` from the ledger's length, earlier records are untouched, the form is reset and the dialog closed |
| PaymentTracking.SendPaymentPrompt | src/components/PaymentTracking.tsx:119-155 | a form missing name, phone or amount leaves the ledger, the form and the dialog unchanged; otherwise exactly one pending record is appended, the form is reset, the dialog closed, and the notice names the phone and the upper-cased service |
| PaymentTracking.AddPaymentUpdatesTotals | src/components/PaymentTracking.tsx:82-103 | a recorded manual payment raises the total and its method's total by the parsed amount and leaves the other methods' totals alone; a rejected form changes no total |
| PaymentTracking.HandlersKeepNumbering | src/components/PaymentTracking.tsx:92-141 | both handlers keep a ledger numbered by position numbered |
| AddPaymentDialog.HandleAddPayment | src/components/payment/AddPaymentDialog.tsx:38-73 | no callback, form kept and no close for an incomplete form; otherwise exactly one callback with the record `MakeManual` builds for `paymentsCount` (padded `PAY-` id, invoice id defaulted only when empty), then the form is reset and `onClose` called |
| AddPaymentDialog.AgreesWithScreen | src/components/payment/AddPaymentDialog.tsx:48-67 | wired to a ledger, with `onClose` closing the dialog, the dialog leaves ledger, form and dialog exactly as the screen's inline handler does |
| PaymentPromptDialog.HandleSendPaymentPrompt | src/components/payment/PaymentPromptDialog.tsx:39-74 | no callback, form kept and no close for an incomplete form; otherwise exactly one callback with the pending record `MakePrompt` builds (padded `PAY-` id, padded `INV-` default), then the form is reset and `onClose` called |
| PaymentPromptDialog.AgreesWithScreen | src/components/payment/PaymentPromptDialog.tsx:49-68 | given the same count, date and timestamp, and with `onClose` closing the dialog, the dialog leaves ledger, form and dialog as the screen's handler does |
| MpesaService.InitiateSTKPush | src/services/mpesaService.ts:21-37 | the response code is "0" and the description is fixed; the checkout id starts with `ws_CO_` and carries the timestamp; the customer message starts with the fixed lead, the phone number and the middle text, and ends with the decimal amount and a full stop |
| MpesaService.MessageFacts | src/services/mpesaService.ts:33 | the message is the lead, the phone number and the middle text, then the decimal amount and a full stop, so it contains both the phone number and the amount |
| MpesaService.CheckoutIdsDistinct | src/services/mpesaService.ts:30 | pushes at distinct times get distinct checkout ids |
| MpesaService.QuerySTKPushStatus | src/services/mpesaService.ts:39-51 | the status query always reports result code "0" |
| MpesaService.StatusIgnoresId | src/services/mpesaService.ts:39-51 | the status answer does not depend on the checkout id |
| QuickSTKPushDialog.PushRequest | src/components/payment/QuickSTKPushDialog.tsx:51-58 | the phone number is the typed one and the amount the parsed typed amount; the account reference is the `INV-` id with `paymentsCount + 1` padded to three digits; the description is "Payment for " followed by the name |
| QuickSTKPushDialog.PendingRecord | src/components/payment/QuickSTKPushDialog.tsx:60-69 | the record is pending M-PESA; its reference is the checkout id; its invoice id and amount are those of the request; its id is the padded `PAY-` id for `paymentsCount + 1`; name, date and the parsed amount come from the form and today |
| QuickSTKPushDialog.HandleQuickSTKPush | src/components/payment/QuickSTKPushDialog.tsx:38-90 | an incomplete form raises the missing-field notice and makes no call; otherwise the provider is called once while busy; exactly one record is created iff it answers, none if it throws; the form is reset and the dialog closed iff it answers; exactly one of the success and failure notices is raised; every record, notice, reset and close comes after the call; the dialog ends not busy |
| QuickSTKPushDialog.Outcome | src/components/payment/QuickSTKPushDialog.tsx:60-86 | an answer yields the pending record, the success notice, the form reset and the close; an exception yields the failure notice, no record, no reset, no close and no success notice; an answer raises no failure notice |
| QuickSTKPushDialog.WrapNotices | src/components/payment/QuickSTKPushDialog.tsx:48-89 | the submission raises a notice exactly when the effects after the call do |
| QuickSTKPushDialog.WrapMembership | src/components/payment/QuickSTKPushDialog.tsx:48-89 | apart from the busy flag and the call, the submission holds exactly the effects that follow the call |
| QuickSTKPushDialog.WrapFacts | src/components/payment/QuickSTKPushDialog.tsx:48-89 | the busy flag is set before the call and cleared at the end; no record precedes the call |
| QuickSTKPushDialog.FailureLeavesLedger | src/components/payment/QuickSTKPushDialog.tsx:71-86 | when the provider throws, the ledger is unchanged |
| QuickSTKPushDialog.StubAlwaysRecords | src/components/payment/QuickSTKPushDialog.tsx:53-71 | against the service stub, a complete form appends one pending record with a `ws_CO_` reference and keeps the ledger numbered |
| Reports.PriorityOf | src/components/ReportsSection.tsx:249 | High iff more than 20 days overdue, Medium iff 11 to 20, Low otherwise |
| Reports.PriorityMonotone | src/components/ReportsSection.tsx:249 | more days overdue never lowers the priority |
| Reports.BadgeAgreesWithLabel | src/components/ReportsSection.tsx:242-249 | the badge colour always matches the priority label |
| Reports.TotalOutstanding | src/components/ReportsSection.tsx:262 | the total outstanding is the sum of the high, medium and low partial sums |
| Reports.OverdueAccounts | src/components/ReportsSection.tsx:271 | the account count is split exactly among the three priorities |
| Reports.ThreeWaySplit | src/components/ReportsSection.tsx:249-262 | the three priority filters partition any sum over the list |
| Reports.RoundedMean | src/components/ReportsSection.tsx:280 | the rounded mean lies within half of the exact mean, halves rounding up |
| Reports.AverageDaysOverdue | src/components/ReportsSection.tsx:280 | there is an average iff the list is non-empty, and it lies within half a day of the exact mean |
| Reports.MockFigures | src/components/ReportsSection.tsx:32-37 | on the report's own list: 11000 outstanding, 4 accounts, average 13 days |
| Billing.MonthlyBill | src/components/BillingInvoicing.tsx:70-80 | the generated bill is pending, dated today, and its id is `INV-` with count + 1 padded to three digits |
| Billing.GenerateMonthlyBills | src/components/BillingInvoicing.tsx:67-83 | exactly one pending invoice, numbered after the list's length, is appended; earlier invoices are untouched; the "Bills Generated" notice counts the bills added |
| Billing.GenerateKeepsNumbering | src/components/BillingInvoicing.tsx:71-83 | bill generation keeps a list numbered by position numbered |
| Billing.WellNumberedIdsDistinct | src/components/BillingInvoicing.tsx:71 | in a list numbered by position, invoice ids are pairwise distinct |
| Billing.MockWellNumbered | src/components/BillingInvoicing.tsx:32-65 | the initial invoices INV-001..INV-003 are numbered by position |
| Billing.FilteredInvoices | src/components/BillingInvoicing.tsx:111-114 | "all" is the identity; a status keeps exactly the invoices with that status, each as often as it occurs, in order |
| Billing.InvoiceFigures | src/components/BillingInvoicing.tsx:111-119 | each status figure sums exactly the shown invoices with that status; paid + pending + overdue = total for every filter; under a status filter the other two sums are zero |
| Billing.OtherSumsVanish | src/components/BillingInvoicing.tsx:111-119 | when the shown invoices all have the filtered status, the sums for the other two statuses are zero |
| Billing.StatusSplit | src/components/BillingInvoicing.tsx:116-119 | the three status filters partition the sum of amounts |
| Billing.OtherStatusesEmpty | src/components/BillingInvoicing.tsx:111-119 | when all shown invoices have one status, filters for the other statuses are empty |
| Billing.RemindableInvoices | src/components/BillingInvoicing.tsx:240 | the reminder action is offered exactly for the invoices that are not paid |
| Billing.RemindersCoverUnpaid | src/components/BillingInvoicing.tsx:116-119 | the remindable invoices and the paid ones together are all shown invoices, and the remindable amounts add up to the pending plus the overdue figure |
| Customers.AddCustomer | src/components/CustomerManagement.tsx:79-111 | a form missing name, phone or location changes nothing; otherwise exactly one active customer with id = length + 1 and the form's fields is appended; the form is reset and the dialog closed |
| Customers.AddKeepsNumbering | src/components/CustomerManagement.tsx:89-95 | if the ids are exactly 1..n, adding keeps them so, and pairwise distinct |
| Customers.MockWellNumbered | src/components/CustomerManagement.tsx:33-67 | the initial customers have ids 1..3 by position |
| Customers.FilteredCustomers | src/components/CustomerManagement.tsx:113-121 | a customer is shown iff name or location (lower-cased) or phone (as typed) contains the term, and the status filter admits it; it is shown as often as it occurs; order is kept; an empty term with "all" shows everyone |
| Customers.SearchThenStatus | src/components/CustomerManagement.tsx:113-121 | the one-pass filter equals searching first and then filtering by status |
| Customers.NameAndLocationIgnoreCase | src/components/CustomerManagement.tsx:114-116 | a match by name or location survives upper-casing the term |
| Customers.PhoneMatchIsCaseSensitive | src/components/CustomerManagement.tsx:115 | the phone number is compared as typed: for example, a customer whose phone holds "X" is found by "X" and not by "x" |
| Packages.AddPackage | src/components/PackageManagement.tsx:74-107 | a form missing name, speed or price changes nothing; otherwise exactly one active package with no subscribers and id = length + 1 is appended; its price renders back to the typed price when that has no leading zero; the form is reset |
| Packages.AddKeepsNumbering | src/components/PackageManagement.tsx:84-94 | adding keeps a list numbered 1..n by position numbered |
| Packages.Toggle | src/components/PackageManagement.tsx:109-112 | the flag flips exactly on the packages with the id; every other field and the length are unchanged |
| Packages.ToggleTwice | src/components/PackageManagement.tsx:109-112 | toggling the same id twice is the identity |
| Packages.ToggleAbsent | src/components/PackageManagement.tsx:109-112 | toggling an absent id changes nothing |
| Packages.FirstIndex | src/components/PackageManagement.tsx:114 | the position found is the first one with the id, or the length if there is none |
| Packages.Find | src/components/PackageManagement.tsx:114 | `find` returns nothing iff no package has the id, and otherwise the first such package |
| Packages.TogglePackageStatus | src/components/PackageManagement.tsx:109-118 | the verb is "deactivated" iff the package found before the toggle was active; an absent id reads "activated" with no name |
| Packages.NoticeAgreesWithNewState | src/components/PackageManagement.tsx:109-118 | in a list numbered by position, toggling flips exactly that package, and "deactivated" is announced iff it is now inactive |
| Packages.PackageStats | src/components/PackageManagement.tsx:265-281 | active ≤ total; active plus inactive = total; the subscriber total is the sum of the customer counts, non-negative when every count is |
| Packages.AddUpdatesStats | src/components/PackageManagement.tsx:84-94 | adding raises the total and the active count by one and keeps the subscribers |
| Packages.ToggleUpdatesStats | src/components/PackageManagement.tsx:265-281 | toggling keeps the total and the subscribers and moves the active count by one in the toggle's direction |
| Packages.MockWellNumbered | src/components/PackageManagement.tsx:28-65 | the initial packages have ids 1..4 by position |

## Left out

- Rendering is not modelled: JSX, styling, dialogs, tabs, the charts, and the presentational components `PaymentTable`, `PaymentStatistics` and `PaymentFilters`. The static dashboard figures in `src/pages/Index.tsx` are left out for the same reason.
- Toasts become a `Notice` tag. Their display text and `toLocaleString` number formatting are not modelled. The "Reminder Sent" toast of `sendReminder` is left out (see below).
- Asynchrony is not modelled: `async`/`await`, `setTimeout` and the 2 s and 1 s service delays. The awaited call becomes a function that answers or throws. The STK dialog's state updates (busy flag, record, toast, form reset, close) become an ordered trace of effects; how React batches them is not modelled.
- The `console.log` calls in `initiateSTKPush` (`src/services/mpesaService.ts:22-24`) are left out, because they only write to the console.
- Wall-clock values are parameters: `Date.now()` is `now` and `new Date().toISOString()` is `today`. Date formatting is not modelled.
- The floating-point percentages and the charts of the reports screen are not modelled. `exportReport` and `sendReminder` are left out because they only log or toast.
- `Strings.ToLower` and `Strings.ToUpper` map ASCII letters only, not the full Unicode case mapping of JavaScript.
- `querySTKPushStatus` is modelled, but it is never called. Pending payments are never reconciled, and the model adds no reconciliation.
- Editing and deleting customers, packages and invoices are not modelled, because the buttons for them have no handlers.
- Payments.MakeManual: requires the amount to be a non-empty digit string. `parseInt` on other text (signs, prefixes, `NaN`) is not modelled.
- Payments.MakePrompt: requires the amount to be a non-empty digit string, for the same reason.
- PaymentTracking.AddPayment: requires the amount field to hold only digits. The field may still be empty, so the guard path is covered.
- PaymentTracking.SendPaymentPrompt: requires the amount field to hold only digits, as above.
- AddPaymentDialog.HandleAddPayment: requires the amount field to hold only digits, as above.
- PaymentPromptDialog.HandleSendPaymentPrompt: requires the amount field to hold only digits, as above.
- QuickSTKPushDialog.HandleQuickSTKPush: requires the amount field to hold only digits, as above.
- QuickSTKPushDialog.PushRequest: requires the amount field to hold only digits, as above.
- QuickSTKPushDialog.PendingRecord: requires the amount field to hold only digits, as above.
- Packages.AddPackage: requires the price field to hold only digits. A price typed with leading zeros is only bounded by its digit count; its exact value is not restated.
- Reports.AverageDaysOverdue: for an empty list it returns no value. The screen would show `NaN`, but its list is fixed and non-empty.
- Reports.RoundedMean: models `Math.round(sum / n)` exactly on integers. Floating-point rounding of very large sums is not modelled.
- Payments.TotalAmount: amounts are unbounded naturals. JavaScript number precision is not modelled.
- Strings.ParseDecimal: reads any digit string exactly. `parseInt` returns a double, so above 2^53 it loses precision; that limit is not modelled.
- Strings.NatToDecimal: writes plain digits for every natural. `String(n)` switches to exponent form from 1e21 on; that is not modelled.

=== FILE: add_payment_dialog.dfy ===
/** The refactored manual-entry dialog: it builds the record from the ledger
    length it is given and hands it to the screen through `onAddPayment`. */
module AddPaymentDialog {
  import opened Strings
  import opened Ids
  import opened Payments
  import PaymentTracking

  /** `handleAddPayment`: no callback, the form kept and the dialog left open for
      an incomplete form; otherwise exactly one call, with the completed record
      numbered `paymentsCount + 1` that `MakeManual` builds, then the form reset
      and `onClose` called. */
  function HandleAddPayment(paymentsCount: nat, form: ManualForm, today: string): (r: Submission<ManualForm>)
    requires IsDecimal(form.amount)
    ensures !ManualFormComplete(form) ==> r == Submission([], form, false, MissingInformation)
    ensures ManualFormComplete(form) ==>
      && r.emitted == [MakeManual(paymentsCount, form, today)]
      && r.emitted[0].status == Completed
      && r.emitted[0].id == PaymentId(paymentsCount + 1)
      && (form.invoiceId == "" ==> r.emitted[0].invoiceId == InvoiceId(paymentsCount + 1))
      && (form.invoiceId != "" ==> r.emitted[0].invoiceId == form.invoiceId)
      && r.emitted[0].amount == ParseDecimal(form.amount)
      && r.form == BlankManualForm && r.closeRequested
      && r.notice == PaymentRecorded(ParseDecimal(form.amount))
  {
    if !ManualFormComplete(form) then
      Submission([], form, false, MissingInformation)
    else
      var p := MakeManual(paymentsCount, form, today);
      Submission([p], BlankManualForm, true, PaymentRecorded(p.amount))
  }

  /** Wired to a ledger (`paymentsCount` its length, `onAddPayment` an append,
      `onClose` closing the dialog), the dialog does exactly what the screen's
      inline handler does. */
  lemma AgreesWithScreen(payments: seq<Payment>, form: ManualForm, dialogOpen: bool, today: string)
    requires IsDecimal(form.amount)
    ensures var sub := HandleAddPayment(|payments|, form, today);
      PaymentTracking.AddPayment(payments, form, dialogOpen, today)
        == PaymentTracking.LedgerStep(payments + sub.emitted, sub.form, dialogOpen && !sub.closeRequested, sub.notice)
  {
  }
}

=== FILE: billing.dfy ===
/** Billing and invoicing: monthly bill generation appends a pending invoice
    numbered after the list, the status filter selects the invoices shown, the
    four figures above the table sum the shown invoices by status, and only
    unpaid invoices offer a reminder. */
module Billing {
  import opened Wrappers
  import opened Strings
  import opened Seqs
  import opened Ids

  datatype InvoiceStatus = Paid | Pending | Overdue {
    /** The value stored in an invoice's `status` field. */
    function Name(): string {
      match this
      case Paid => "paid"
      case Pending => "pending"
      case Overdue => "overdue"
    }
  }

  datatype Invoice = Invoice(
    id: string,
    customerId: int,
    customerName: string,
    amount: int,
    dueDate: string,
    status: InvoiceStatus,
    billingPeriod: string,
    packageName: string,
    generated: string)

  /** The bill the generator produces (its customer, amount and period are fixed
      in the screen), numbered for a list of `count` invoices and dated `today`. */
  function MonthlyBill(count: nat, today: string): (inv: Invoice)
    ensures inv.id == InvoiceId(count + 1) && SequenceNumber(InvoicePrefix, inv.id) == Some(count + 1)
    ensures inv.status == Pending && inv.generated == today
  {
    SeqIdRoundTrip(InvoicePrefix, count + 1);
    Invoice(InvoiceId(count + 1), 4, "Jane Mwangi", 3000, "2024-02-28", Pending,
            "February 2024", "15Mbps Home Plus", today)
  }

  /** The "Bills Generated" notification, carrying how many bills were added. */
  datatype Notice = BillsGenerated(count: nat)

  /** The invoice list after generation, and the notification raised. */
  datatype Generation = Generation(invoices: seq<Invoice>, notice: Notice)

  /** `generateMonthlyBills`: exactly one pending invoice is appended, numbered
      after the list's length; earlier invoices are untouched; the notification
      counts the bills added. */
  function GenerateMonthlyBills(invoices: seq<Invoice>, today: string): (r: Generation)
    ensures |r.invoices| == |invoices| + 1
    ensures r.invoices[..|invoices|] == invoices
    ensures r.invoices[|invoices|] == MonthlyBill(|invoices|, today)
    ensures r.invoices[|invoices|].status == Pending
    ensures SequenceNumber(InvoicePrefix, r.invoices[|invoices|].id) == Some(|invoices| + 1)
    ensures r.notice == BillsGenerated(|r.invoices| - |invoices|)
  {
    var added := [MonthlyBill(|invoices|, today)];
    Generation(invoices + added, BillsGenerated(|added|))
  }

  /** The i-th invoice (from 0) carries sequence number i + 1 in its id. */
  predicate WellNumbered(invoices: seq<Invoice>) {
    forall i :: 0 <= i < |invoices| ==> SequenceNumber(InvoicePrefix, invoices[i].id) == Some(i + 1)
  }

  /** Generating bills keeps a well-numbered list well numbered. */
  lemma GenerateKeepsNumbering(invoices: seq<Invoice>, today: string)
    requires WellNumbered(invoices)
    ensures WellNumbered(GenerateMonthlyBills(invoices, today).invoices)
  {
    var r := GenerateMonthlyBills(invoices, today).invoices;
    forall i | 0 <= i < |r|
      ensures SequenceNumber(InvoicePrefix, r[i].id) == Some(i + 1)
    {
      if i < |invoices| {
        assert r[i] == r[..|invoices|][i];
      }
    }
  }

  /** In a well-numbered list the invoice ids are pairwise distinct. */
  lemma WellNumberedIdsDistinct(invoices: seq<Invoice>)
    requires WellNumbered(invoices)
    ensures forall i, j :: 0 <= i < j < |invoices| ==> invoices[i].id != invoices[j].id
  {
    forall i, j | 0 <= i < j < |invoices|
      ensures invoices[i].id != invoices[j].id
    {
      assert SequenceNumber(InvoicePrefix, invoices[i].id) == Some(i + 1);
      assert SequenceNumber(InvoicePrefix, invoices[j].id) == Some(j + 1);
    }
  }

  /** The screen's initial invoices. */
  function MockInvoices(): seq<Invoice> {
    [ Invoice("INV-001", 1, "John Kamau", 2500, "2024-01-31", Paid,
              "January 2024", "10Mbps Premium", "2024-01-01"),
      Invoice("INV-002", 2, "Mary Wanjiku", 1500, "2024-01-31", Pending,
              "January 2024", "5Mbps Basic", "2024-01-01"),
      Invoice("INV-003", 3, "Peter Otieno", 4000, "2024-01-31", Overdue,
              "January 2024", "20Mbps Business", "2024-01-01") ]
  }

  /** The initial invoices are numbered 1..3, so generated bills get fresh ids. */
  lemma MockWellNumbered()
    ensures WellNumbered(MockInvoices())
  {
    var s := MockInvoices();
    SingleDigitNumber(1, s[0].id);
    SingleDigitNumber(2, s[1].id);
    SingleDigitNumber(3, s[2].id);
  }

  /** An invoice id written with two padding zeros and one digit carries that digit's number. */
  lemma SingleDigitNumber(n: nat, id: string)
    requires 1 <= n < 10
    requires id == InvoicePrefix + "00" + [DigitChar(n)]
    ensures SequenceNumber(InvoicePrefix, id) == Some(n)
  {
    assert NatToDecimal(n) == [DigitChar(n)];
    assert Repeat('0', 2) == "00";
    assert InvoiceId(n) == id;
    SeqIdRoundTrip(InvoicePrefix, n);
  }

  // ---------------------------------------------------------------------------
  // Status filter and figures
  // ---------------------------------------------------------------------------

  datatype StatusFilter = AllInvoices | OnlyStatus(status: InvoiceStatus)

  function ByStatus(s: InvoiceStatus): Invoice -> bool {
    (inv: Invoice) => inv.status == s
  }

  function Selected(f: StatusFilter): Invoice -> bool {
    (inv: Invoice) => f.AllInvoices? || inv.status == f.status
  }

  /** `filteredInvoices`: "all" shows every invoice; a status shows exactly the
      invoices with that status, each as often as in the list, in list order. */
  function FilteredInvoices(invoices: seq<Invoice>, f: StatusFilter): (r: seq<Invoice>)
    ensures f == AllInvoices ==> r == invoices
    ensures f.OnlyStatus? ==> forall inv :: inv in r <==> inv in invoices && inv.status == f.status
    ensures f.OnlyStatus? ==>
      forall inv :: multiset(r)[inv] == if inv.status == f.status then multiset(invoices)[inv] else 0
    ensures IsSubsequence(r, invoices)
  {
    var r := Filter(invoices, Selected(f));
    FilterIsSubsequence(invoices, Selected(f));
    FilterMembershipAll(invoices, Selected(f));
    FilterMultiplicityAll(invoices, Selected(f));
    assert f == AllInvoices ==> r == invoices by {
      if f == AllInvoices {
        FilterKeepsAll(invoices, Selected(f));
      }
    }
    r
  }

  function AmountOf(inv: Invoice): int {
    inv.amount
  }

  /** The four figures above the invoice table. */
  datatype Figures = Figures(total: int, paid: int, pending: int, overdue: int)

  /** `totalAmount` and the paid, pending and overdue sums over the shown invoices:
      each status figure sums exactly the shown invoices with that status, the
      three add up to the total for every filter, and under a status filter the
      other two sums are zero. */
  function InvoiceFigures(invoices: seq<Invoice>, f: StatusFilter): (r: Figures)
    ensures r.paid + r.pending + r.overdue == r.total
    ensures r.total == Sum(FilteredInvoices(invoices, f), AmountOf)
    ensures r.paid == Sum(Filter(FilteredInvoices(invoices, f), ByStatus(Paid)), AmountOf)
    ensures r.pending == Sum(Filter(FilteredInvoices(invoices, f), ByStatus(Pending)), AmountOf)
    ensures r.overdue == Sum(Filter(FilteredInvoices(invoices, f), ByStatus(Overdue)), AmountOf)
    ensures f == OnlyStatus(Paid) ==> r.pending == 0 && r.overdue == 0
    ensures f == OnlyStatus(Pending) ==> r.paid == 0 && r.overdue == 0
    ensures f == OnlyStatus(Overdue) ==> r.paid == 0 && r.pending == 0
  {
    var shown := FilteredInvoices(invoices, f);
    StatusSplit(shown);
    OtherSumsVanish(shown, f);
    Figures(
      Sum(shown, AmountOf),
      Sum(Filter(shown, ByStatus(Paid)), AmountOf),
      Sum(Filter(shown, ByStatus(Pending)), AmountOf),
      Sum(Filter(shown, ByStatus(Overdue)), AmountOf))
  }

  /** Under a status filter the sums for the two other statuses are zero. */
  lemma OtherSumsVanish(shown: seq<Invoice>, f: StatusFilter)
    requires f.OnlyStatus? ==> forall inv :: inv in shown ==> inv.status == f.status
    ensures f == OnlyStatus(Paid) ==>
      Sum(Filter(shown, ByStatus(Pending)), AmountOf) == 0 && Sum(Filter(shown, ByStatus(Overdue)), AmountOf) == 0
    ensures f == OnlyStatus(Pending) ==>
      Sum(Filter(shown, ByStatus(Paid)), AmountOf) == 0 && Sum(Filter(shown, ByStatus(Overdue)), AmountOf) == 0
    ensures f == OnlyStatus(Overdue) ==>
      Sum(Filter(shown, ByStatus(Paid)), AmountOf) == 0 && Sum(Filter(shown, ByStatus(Pending)), AmountOf) == 0
  {
    if f.OnlyStatus? {
      OtherStatusesEmpty(shown, f.status);
    }
  }

  /** When every shown invoice has status `kept`, the sums for the other
      statuses run over nothing. */
  lemma OtherStatusesEmpty(shown: seq<Invoice>, kept: InvoiceStatus)
    requires forall inv :: inv in shown ==> inv.status == kept
    ensures forall other :: other != kept ==> Filter(shown, ByStatus(other)) == []
  {
    forall other | other != kept
      ensures Filter(shown, ByStatus(other)) == []
    {
      forall i | 0 <= i < |shown|
        ensures !ByStatus(other)(shown[i])
      {
        assert shown[i] in shown;
      }
      FilterKeepsNone(shown, ByStatus(other));
    }
  }

  lemma {:induction false} StatusSplit(s: seq<Invoice>)
    ensures Sum(s, AmountOf)
         == Sum(Filter(s, ByStatus(Paid)), AmountOf) + Sum(Filter(s, ByStatus(Pending)), AmountOf)
          + Sum(Filter(s, ByStatus(Overdue)), AmountOf)
  {
    if |s| > 0 {
      StatusSplit(s[1..]);
      forall st: InvoiceStatus
        ensures Sum(Filter(s, ByStatus(st)), AmountOf)
             == (if s[0].status == st then s[0].amount else 0) + Sum(Filter(s[1..], ByStatus(st)), AmountOf)
      {
        var head := if ByStatus(st)(s[0]) then [s[0]] else [];
        SumConcat(head, Filter(s[1..], ByStatus(st)), AmountOf);
      }
    }
  }

  // ---------------------------------------------------------------------------
  // Reminders
  // ---------------------------------------------------------------------------

  function AwaitingPayment(): Invoice -> bool {
    (inv: Invoice) => inv.status != Paid
  }

  /** The shown invoices whose row offers the reminder action: exactly those not
      yet paid. */
  function RemindableInvoices(shown: seq<Invoice>): (r: seq<Invoice>)
    ensures forall inv :: inv in r <==> inv in shown && inv.status != Paid
  {
    FilterMembershipAll(shown, AwaitingPayment());
    Filter(shown, AwaitingPayment())
  }

  /** The remindable invoices are the shown ones minus the paid ones: together
      with the paid invoices they are as many as the shown invoices, and their
      amounts are the pending plus the overdue figure. */
  lemma RemindersCoverUnpaid(invoices: seq<Invoice>, f: StatusFilter)
    ensures var shown := FilteredInvoices(invoices, f);
      var figures := InvoiceFigures(invoices, f);
      && |RemindableInvoices(shown)| + |Filter(shown, ByStatus(Paid))| == |shown|
      && Sum(RemindableInvoices(shown), AmountOf) == figures.pending + figures.overdue
  {
    var shown := FilteredInvoices(invoices, f);
    FilterCongruent(shown, Not(AwaitingPayment()), ByStatus(Paid));
    FilterCountPartition(shown, AwaitingPayment());
    SumPartition(shown, AmountOf, AwaitingPayment());
  }
}

=== FILE: customers.dfy ===
/** Customer management: adding a customer from the dialog's form behind a
    required-field check, and the search and status filter over the customer
    table. Customers are numbered by the list's length. */
module Customers {
  import opened Strings
  import opened Seqs

  datatype ConnectionType = Fiber | Wireless

  datatype CustomerStatus = Active | Inactive | Suspended {
    /** The value stored in a customer's `status` field. */
    function Name(): string {
      match this
      case Active => "active"
      case Inactive => "inactive"
      case Suspended => "suspended"
    }
  }

  datatype Customer = Customer(
    id: int,
    name: string,
    location: string,
    phone: string,
    email: string,
    connectionType: ConnectionType,
    packageName: string,
    status: CustomerStatus,
    routerMac: string)

  /** The add-customer dialog's fields. */
  datatype CustomerForm = CustomerForm(
    name: string,
    location: string,
    phone: string,
    email: string,
    connectionType: ConnectionType,
    packageName: string,
    routerMac: string)

  /** The form as the dialog opens and as it is reset after an add. */
  const BlankForm: CustomerForm := CustomerForm("", "", "", "", Fiber, "", "")

  datatype Notice = MissingInformation | CustomerAdded(name: string)

  /** The screen after the add handler: the list, the form, whether the dialog
      is open, and the notification raised. */
  datatype AddStep = AddStep(customers: seq<Customer>, form: CustomerForm, dialogOpen: bool, notice: Notice)

  /** Name, phone and location are required; the other fields may stay empty. */
  predicate FormComplete(form: CustomerForm) {
    form.name != "" && form.phone != "" && form.location != ""
  }

  /** The form fields a customer record carries. */
  function FormOf(c: Customer): CustomerForm {
    CustomerForm(c.name, c.location, c.phone, c.email, c.connectionType, c.packageName, c.routerMac)
  }

  /** `handleAddCustomer`: an incomplete form changes nothing but the notice. A
      complete one appends exactly one active customer whose id is the new length
      and whose fields are the form's, resets the form and closes the dialog. */
  function AddCustomer(customers: seq<Customer>, form: CustomerForm, dialogOpen: bool): (r: AddStep)
    ensures !FormComplete(form) ==> r == AddStep(customers, form, dialogOpen, MissingInformation)
    ensures FormComplete(form) ==>
      && |r.customers| == |customers| + 1
      && r.customers[..|customers|] == customers
      && r.customers[|customers|].id == |customers| + 1
      && r.customers[|customers|].status == Active
      && FormOf(r.customers[|customers|]) == form
      && r.form == BlankForm && !r.dialogOpen
      && r.notice == CustomerAdded(form.name)
  {
    if !FormComplete(form) then
      AddStep(customers, form, dialogOpen, MissingInformation)
    else
      var c := Customer(|customers| + 1, form.name, form.location, form.phone, form.email,
                        form.connectionType, form.packageName, Active, form.routerMac);
      AddStep(customers + [c], BlankForm, false, CustomerAdded(c.name))
  }

  /** The customer at position i (from 0) has id i + 1. */
  predicate WellNumbered(customers: seq<Customer>) {
    forall i :: 0 <= i < |customers| ==> customers[i].id == i + 1
  }

  /** Adding keeps a list whose ids are exactly 1..n numbered that way, so the ids
      of a list built only by adding stay pairwise distinct. */
  lemma AddKeepsNumbering(customers: seq<Customer>, form: CustomerForm, dialogOpen: bool)
    requires WellNumbered(customers)
    ensures var r := AddCustomer(customers, form, dialogOpen).customers;
      && WellNumbered(r)
      && forall i, j :: 0 <= i < j < |r| ==> r[i].id != r[j].id
  {
    var r := AddCustomer(customers, form, dialogOpen).customers;
    forall i | 0 <= i < |r|
      ensures r[i].id == i + 1
    {
      if i < |customers| {
        assert r[i] == r[..|customers|][i];
      }
    }
  }

  /** The screen's initial customers. */
  function MockCustomers(): seq<Customer> {
    [ Customer(1, "John Kamau", "Nairobi - Westlands", "+254712345678", "john.kamau@email.com",
               Fiber, "10Mbps Premium", Active, "AA:BB:CC:DD:EE:FF"),
      Customer(2, "Mary Wanjiku", "Kiambu - Ruiru", "+254723456789", "mary.wanjiku@email.com",
               Wireless, "5Mbps Basic", Active, "BB:CC:DD:EE:FF:AA"),
      Customer(3, "Peter Otieno", "Kisumu - Milimani", "+254734567890", "peter.otieno@email.com",
               Fiber, "20Mbps Business", Suspended, "CC:DD:EE:FF:AA:BB") ]
  }

  /** The initial list is numbered 1..3, so adding keeps its ids distinct. */
  lemma MockWellNumbered()
    ensures WellNumbered(MockCustomers())
  {
  }

  // ---------------------------------------------------------------------------
  // Search and status filter
  // ---------------------------------------------------------------------------

  datatype StatusFilter = AllCustomers | OnlyStatus(status: CustomerStatus)

  /** The search: name and location compared lower-cased, the phone number
      compared as typed. */
  predicate MatchesSearch(c: Customer, term: string) {
    || Contains(ToLower(c.name), ToLower(term))
    || Contains(c.phone, term)
    || Contains(ToLower(c.location), ToLower(term))
  }

  predicate MatchesStatus(c: Customer, f: StatusFilter) {
    f.AllCustomers? || c.status == f.status
  }

  function Searched(term: string): Customer -> bool {
    (c: Customer) => MatchesSearch(c, term)
  }

  function WithStatus(f: StatusFilter): Customer -> bool {
    (c: Customer) => MatchesStatus(c, f)
  }

  function Shown(term: string, f: StatusFilter): Customer -> bool {
    (c: Customer) => MatchesSearch(c, term) && MatchesStatus(c, f)
  }

  /** `filteredCustomers`: exactly the customers matching both the search and the
      status filter, each as often as in the list, in list order; an empty term
      under "all" shows everyone. */
  function FilteredCustomers(customers: seq<Customer>, term: string, f: StatusFilter): (r: seq<Customer>)
    ensures IsSubsequence(r, customers)
    ensures forall c :: c in r <==> c in customers && MatchesSearch(c, term) && MatchesStatus(c, f)
    ensures forall c :: multiset(r)[c] == if MatchesSearch(c, term) && MatchesStatus(c, f) then multiset(customers)[c] else 0
    ensures term == "" && f == AllCustomers ==> r == customers
  {
    FilterIsSubsequence(customers, Shown(term, f));
    FilterMembershipAll(customers, Shown(term, f));
    FilterMultiplicityAll(customers, Shown(term, f));
    UnfilteredShowsAll(customers);
    Filter(customers, Shown(term, f))
  }

  lemma UnfilteredShowsAll(customers: seq<Customer>)
    ensures Filter(customers, Shown("", AllCustomers)) == customers
  {
    assert ToLower("") == "";
    forall i | 0 <= i < |customers|
      ensures Shown("", AllCustomers)(customers[i])
    {
      ContainsEmpty(ToLower(customers[i].name));
    }
    FilterKeepsAll(customers, Shown("", AllCustomers));
  }

  /** The one-pass filter equals searching first and then applying the status
      filter to what the search found. */
  lemma SearchThenStatus(customers: seq<Customer>, term: string, f: StatusFilter)
    ensures FilteredCustomers(customers, term, f) == Filter(Filter(customers, Searched(term)), WithStatus(f))
  {
    FilterFilter(customers, Searched(term), WithStatus(f));
    FilterCongruent(customers, Both(Searched(term), WithStatus(f)), Shown(term, f));
  }

  /** Name and location matching ignore the case of the term, so an upper-cased
      term still finds every customer found by name or location. */
  lemma NameAndLocationIgnoreCase(c: Customer, term: string)
    requires Contains(ToLower(c.name), ToLower(term)) || Contains(ToLower(c.location), ToLower(term))
    ensures MatchesSearch(c, ToUpper(term))
  {
    LowerForgetsCase(term);
  }

  /** The phone number is compared as typed: a letter in the term that the phone
      number holds in the other case does not match. */
  lemma PhoneMatchIsCaseSensitive()
    ensures var c := Customer(4, "Ann", "Thika", "+2547X", "", Fiber, "", Active, "");
      && MatchesSearch(c, "X")
      && !MatchesSearch(c, "x")
  {
    var c := Customer(4, "Ann", "Thika", "+2547X", "", Fiber, "", Active, "");
    assert ToLower("x") == "x";
    assert ToLower("Ann") == "ann";
    assert ToLower("Thika") == "thika";
    assert IsPrefix("X", c.phone[5..]);
    NoCharNoMatch("ann", 'x');
    NoCharNoMatch("thika", 'x');
    NoCharNoMatch(c.phone, 'x');
  }

  /** A string that does not hold a character does not contain it as a substring. */
  lemma {:induction false} NoCharNoMatch(s: string, ch: char)
    requires forall i :: 0 <= i < |s| ==> s[i] != ch
    ensures !Contains(s, [ch])
  {
    if |s| > 0 {
      assert s[..1][0] == s[0];
      NoCharNoMatch(s[1..], ch);
    }
  }
}

=== FILE: ids.dfy ===
/** The two sequence-numbered identifier formats of the dashboard: payment ids
    `PAY-NNN` and invoice ids `INV-NNN`, the number zero-padded to three digits. */
module Ids {
  import opened Wrappers
  import opened Strings

  const PaymentPrefix: string := "PAY-"
  const InvoicePrefix: string := "INV-"

  function PaymentId(n: nat): string {
    SeqId(PaymentPrefix, n)
  }

  function InvoiceId(n: nat): string {
    SeqId(InvoicePrefix, n)
  }

  /** The fourth payment and invoice ids, as the screens show them. */
  lemma FourthIds()
    ensures PaymentId(4) == "PAY-004" && InvoiceId(4) == "INV-004"
  {
    assert NatToDecimal(4) == "4";
    assert Repeat('0', 2) == "00";
  }

  /** Payment ids and invoice ids never coincide, and neither format reads as
      the other: a payment id carries no invoice number and vice versa. */
  lemma PaymentAndInvoiceIdsDiffer(a: nat, b: nat)
    ensures PaymentId(a) != InvoiceId(b)
    ensures SequenceNumber(InvoicePrefix, PaymentId(a)) == None
    ensures SequenceNumber(PaymentPrefix, InvoiceId(b)) == None
  {
    assert PaymentId(a)[..|InvoicePrefix|][0] == 'P';
    assert InvoiceId(b)[..|PaymentPrefix|][0] == 'I';
  }
}

=== FILE: mpesa_service.dfy ===
/** The M-PESA STK Push service stub. Its responses are canned: initiation always
    succeeds with a checkout id built from the current time, and the status query
    always reports success. The simulated network delay is not part of the model. */
module MpesaService {
  import opened Strings

  datatype STKPushRequest = STKPushRequest(
    phoneNumber: string,
    amount: nat,
    accountReference: string,
    transactionDesc: string)

  datatype STKPushResponse = STKPushResponse(
    checkoutRequestID: string,
    responseCode: string,
    responseDescription: string,
    customerMessage: string)

  datatype StatusResponse = StatusResponse(
    responseCode: string,
    responseDescription: string,
    resultCode: string,
    resultDesc: string)

  /** How awaiting a provider call ends: with a response, or with an exception. */
  datatype Reply = Answered(response: STKPushResponse) | Threw

  const CheckoutPrefix: string := "ws_CO_"
  const AcceptedDescription: string := "Success. Request accepted for processing"
  const MessageLead: string := "An STK Push has been sent to "
  const MessageMiddle: string := ". Please check your phone and enter your M-PESA PIN to complete the payment of KSh "

  /** `initiateSTKPush`, resolved at time `now` (milliseconds): response code "0",
      a fixed description, a checkout id that starts with `ws_CO_` and carries the
      timestamp, and a customer message that names the phone number and ends with
      the decimal amount and a full stop. */
  function InitiateSTKPush(request: STKPushRequest, now: nat): (r: STKPushResponse)
    ensures r.responseCode == "0"
    ensures r.responseDescription == AcceptedDescription
    ensures IsPrefix(CheckoutPrefix, r.checkoutRequestID)
    ensures IsDecimal(r.checkoutRequestID[|CheckoutPrefix|..])
    ensures ParseDecimal(r.checkoutRequestID[|CheckoutPrefix|..]) == now
    ensures IsPrefix(MessageLead + request.phoneNumber + MessageMiddle, r.customerMessage)
    ensures r.customerMessage[|MessageLead + request.phoneNumber + MessageMiddle|..] == NatToDecimal(request.amount) + "."
    ensures Contains(r.customerMessage, request.phoneNumber)
    ensures Contains(r.customerMessage, NatToDecimal(request.amount))
  {
    var id := CheckoutPrefix + NatToDecimal(now);
    DecimalRoundTrip(now);
    assert id[|CheckoutPrefix|..] == NatToDecimal(now);
    MessageFacts(request.phoneNumber, request.amount);
    STKPushResponse(id, "0", AcceptedDescription, CustomerMessage(request.phoneNumber, request.amount))
  }

  /** The customer message for a push to `phone` of `amount` shillings. */
  function CustomerMessage(phone: string, amount: nat): string {
    MessageLead + phone + MessageMiddle + NatToDecimal(amount) + "."
  }

  /** The message starts with the lead, the phone number and the middle text,
      ends with the decimal amount and a full stop, and contains both. */
  lemma MessageFacts(phone: string, amount: nat)
    ensures var message := CustomerMessage(phone, amount);
      && IsPrefix(MessageLead + phone + MessageMiddle, message)
      && message[|MessageLead + phone + MessageMiddle|..] == NatToDecimal(amount) + "."
      && Contains(message, phone)
      && Contains(message, NatToDecimal(amount))
  {
    var head := MessageLead + phone + MessageMiddle;
    var digits := NatToDecimal(amount);
    var message := CustomerMessage(phone, amount);
    assert message == head + (digits + ".");
    assert message[..|head|] == head;
    assert message[|head|..] == digits + ".";
    assert MessageLead + phone + (MessageMiddle + digits + ".") == message;
    ContainsPart(MessageLead, phone, MessageMiddle + digits + ".");
    ContainsPart(head, digits, ".");
  }

  /** The stub as a provider: it answers every request, at time `now`. */
  function Stub(now: nat): STKPushRequest -> Reply {
    request => Answered(InitiateSTKPush(request, now))
  }

  /** Checkout ids issued at distinct times are distinct. */
  lemma CheckoutIdsDistinct(a: STKPushRequest, b: STKPushRequest, t1: nat, t2: nat)
    requires t1 != t2
    ensures InitiateSTKPush(a, t1).checkoutRequestID != InitiateSTKPush(b, t2).checkoutRequestID
  {
  }

  /** `querySTKPushStatus`: success, whatever the checkout id. */
  function QuerySTKPushStatus(checkoutRequestId: string): (r: StatusResponse)
    ensures r.resultCode == "0" && r.responseCode == "0"
  {
    StatusResponse(
      "0",
      "The service request has been accepted successfully",
      "0",
      "The service request is processed successfully.")
  }

  /** The status answer does not depend on which checkout id is asked about. */
  lemma StatusIgnoresId(a: string, b: string)
    ensures QuerySTKPushStatus(a) == QuerySTKPushStatus(b)
  {
  }
}

=== FILE: packages.dfy ===
/** Package management: adding a package behind a required-field check, switching
    a package between active and inactive by id, and the three statistics under
    the package table. Packages are numbered by the list's length. */
module Packages {
  import opened Wrappers
  import opened Strings
  import opened Seqs

  datatype Package = Package(
    id: int,
    name: string,
    speed: string,
    price: nat,
    description: string,
    isActive: bool,
    customerCount: int)

  /** The add-package dialog's fields; the price is typed as text. */
  datatype PackageForm = PackageForm(name: string, speed: string, price: string, description: string)

  const BlankForm: PackageForm := PackageForm("", "", "", "")

  datatype Verb = Activated | Deactivated

  /** The notification: missing fields, a package created, or a package switched,
      named by the first package with the id (none when there is no such package). */
  datatype Notice = MissingInformation | PackageAdded(name: string) | PackageUpdated(target: Option<string>, verb: Verb)

  datatype AddStep = AddStep(packages: seq<Package>, form: PackageForm, dialogOpen: bool, notice: Notice)

  /** Name, speed and price are required; the description may stay empty. */
  predicate FormComplete(form: PackageForm) {
    form.name != "" && form.speed != "" && form.price != ""
  }

  /** `handleAddPackage`: an incomplete form changes nothing but the notice. A
      complete one appends exactly one active package without subscribers, with
      the new length as id and the typed price read as a whole number, resets the
      form and closes the dialog. */
  function AddPackage(packages: seq<Package>, form: PackageForm, dialogOpen: bool): (r: AddStep)
    requires IsDecimal(form.price)
    ensures !FormComplete(form) ==> r == AddStep(packages, form, dialogOpen, MissingInformation)
    ensures FormComplete(form) ==> |r.packages| == |packages| + 1
    ensures FormComplete(form) ==>
      var p := r.packages[|packages|];
      && r.packages[..|packages|] == packages
      && p.id == |packages| + 1
      && p.isActive && p.customerCount == 0
      && p.name == form.name && p.speed == form.speed && p.description == form.description
      && (form.price[0] != '0' ==> NatToDecimal(p.price) == form.price)
      && p.price < Pow10(|form.price|)
      && r.form == BlankForm && !r.dialogOpen
      && r.notice == PackageAdded(form.name)
  {
    if !FormComplete(form) then
      AddStep(packages, form, dialogOpen, MissingInformation)
    else
      assert form.price[0] != '0' ==> NatToDecimal(ParseDecimal(form.price)) == form.price by {
        if form.price[0] != '0' {
          RenderUndoesParse(form.price);
        }
      }
      AddStep(packages + [NewPackage(|packages|, form)], BlankForm, false, PackageAdded(form.name))
  }

  /** The package created from a complete form for a list of `count` packages. */
  function NewPackage(count: nat, form: PackageForm): Package
    requires IsDecimal(form.price)
  {
    Package(count + 1, form.name, form.speed, ParseDecimal(form.price), form.description, true, 0)
  }

  /** The package at position i (from 0) has id i + 1. */
  predicate WellNumbered(packages: seq<Package>) {
    forall i :: 0 <= i < |packages| ==> packages[i].id == i + 1
  }

  lemma AddKeepsNumbering(packages: seq<Package>, form: PackageForm, dialogOpen: bool)
    requires IsDecimal(form.price)
    requires WellNumbered(packages)
    ensures WellNumbered(AddPackage(packages, form, dialogOpen).packages)
  {
    var r := AddPackage(packages, form, dialogOpen).packages;
    forall i | 0 <= i < |r|
      ensures r[i].id == i + 1
    {
      if i < |packages| {
        assert r[i] == r[..|packages|][i];
      }
    }
  }

  // ---------------------------------------------------------------------------
  // Active toggle
  // ---------------------------------------------------------------------------

  function Flip(p: Package): Package {
    p.(isActive := !p.isActive)
  }

  /** The list after switching every package with the id: those packages have
      their active flag negated and every other field kept; all other packages are
      unchanged, and so is the length. */
  function Toggle(packages: seq<Package>, id: int): (r: seq<Package>)
    ensures |r| == |packages|
    ensures forall i :: 0 <= i < |r| ==> r[i].(isActive := packages[i].isActive) == packages[i]
    ensures forall i :: 0 <= i < |r| ==> (r[i].isActive != packages[i].isActive <==> packages[i].id == id)
  {
    seq(|packages|, i requires 0 <= i < |packages| => if packages[i].id == id then Flip(packages[i]) else packages[i])
  }

  /** Switching the same id twice restores the list. */
  lemma ToggleTwice(packages: seq<Package>, id: int)
    ensures Toggle(Toggle(packages, id), id) == packages
  {
    var r := Toggle(Toggle(packages, id), id);
    forall i | 0 <= i < |packages|
      ensures r[i] == packages[i]
    {
    }
  }

  /** Switching an id no package has changes nothing. */
  lemma ToggleAbsent(packages: seq<Package>, id: int)
    requires forall i :: 0 <= i < |packages| ==> packages[i].id != id
    ensures Toggle(packages, id) == packages
  {
  }

  /** The position of the first package with the id, or the length when there
      is none. */
  function FirstIndex(packages: seq<Package>, id: int): (k: nat)
    ensures k <= |packages|
    ensures k < |packages| ==> packages[k].id == id
    ensures forall j :: 0 <= j < k ==> packages[j].id != id
  {
    if |packages| == 0 then 0
    else if packages[0].id == id then 0
    else 1 + FirstIndex(packages[1..], id)
  }

  /** `packages.find(p => p.id === id)`: the first package with the id, if any. */
  function Find(packages: seq<Package>, id: int): (r: Option<Package>)
    ensures r.None? <==> forall i :: 0 <= i < |packages| ==> packages[i].id != id
    ensures r.Some? ==> r.value == packages[FirstIndex(packages, id)] && r.value.id == id
  {
    var k := FirstIndex(packages, id);
    if k < |packages| then Some(packages[k]) else None
  }

  /** `togglePackageStatus`: the switched list, and a notice read from the list
      as it was before the switch. */
  function TogglePackageStatus(packages: seq<Package>, id: int): (r: (seq<Package>, Notice))
    ensures r.0 == Toggle(packages, id)
    ensures r.1.PackageUpdated?
    ensures r.1.verb == Deactivated <==> Find(packages, id).Some? && Find(packages, id).value.isActive
    ensures r.1.target == (if Find(packages, id).Some? then Some(Find(packages, id).value.name) else None)
  {
    var found := Find(packages, id);
    var verb := if found.Some? && found.value.isActive then Deactivated else Activated;
    (Toggle(packages, id), PackageUpdated(if found.Some? then Some(found.value.name) else None, verb))
  }

  /** On a well-numbered list, switching the id of the package at position k
      flips exactly that package, and the notice's verb says which way it went:
      "deactivated" exactly when the package is now inactive. */
  lemma NoticeAgreesWithNewState(packages: seq<Package>, k: nat)
    requires WellNumbered(packages)
    requires k < |packages|
    ensures var (after, notice) := TogglePackageStatus(packages, k + 1);
      && after == packages[k := Flip(packages[k])]
      && notice.target == Some(packages[k].name)
      && (notice.verb == Deactivated <==> !after[k].isActive)
  {
    assert packages[k].id == k + 1;
    assert FirstIndex(packages, k + 1) == k;
    assert Toggle(packages, k + 1) == packages[k := Flip(packages[k])];
  }

  // ---------------------------------------------------------------------------
  // Statistics
  // ---------------------------------------------------------------------------

  function IsActive(): Package -> bool {
    (p: Package) => p.isActive
  }

  function CustomerCountOf(p: Package): int {
    p.customerCount
  }

  /** The three figures under the table: total packages, active packages and
      total subscribers. */
  datatype Stats = Stats(total: nat, active: nat, subscribers: int)

  /** The active packages plus the inactive ones make up the total; the
      subscribers are the `reduce` of the customer counts, never negative when no
      count is. */
  function PackageStats(packages: seq<Package>): (r: Stats)
    ensures r.active <= r.total == |packages|
    ensures r.active + |Filter(packages, Not(IsActive()))| == r.total
    ensures r.subscribers == Sum(packages, CustomerCountOf)
    ensures (forall i :: 0 <= i < |packages| ==> packages[i].customerCount >= 0) ==> r.subscribers >= 0
  {
    FilterCountPartition(packages, IsActive());
    assert (forall i :: 0 <= i < |packages| ==> packages[i].customerCount >= 0) ==> Sum(packages, CustomerCountOf) >= 0 by {
      if (forall i :: 0 <= i < |packages| ==> packages[i].customerCount >= 0) {
        SumNonNegative(packages, CustomerCountOf);
      }
    }
    Stats(|packages|, |Filter(packages, IsActive())|, Sum(packages, CustomerCountOf))
  }

  /** Adding a package raises the total and the active count by one and leaves
      the subscribers as they were. */
  lemma AddUpdatesStats(packages: seq<Package>, form: PackageForm, dialogOpen: bool)
    requires IsDecimal(form.price) && FormComplete(form)
    ensures var before := PackageStats(packages);
      var after := PackageStats(AddPackage(packages, form, dialogOpen).packages);
      after == Stats(before.total + 1, before.active + 1, before.subscribers)
  {
    var r := AddPackage(packages, form, dialogOpen).packages;
    var p := r[|packages|];
    assert r == packages + [p];
    FilterConcat(packages, [p], IsActive());
    SumConcat(packages, [p], CustomerCountOf);
    assert [p][1..] == [];
  }

  /** Switching a package of a well-numbered list keeps the total and the
      subscribers, and moves the active count by one in the direction of the
      switch. */
  lemma ToggleUpdatesStats(packages: seq<Package>, k: nat)
    requires WellNumbered(packages)
    requires k < |packages|
    ensures var before := PackageStats(packages);
      var after := PackageStats(Toggle(packages, k + 1));
      && after.total == before.total
      && after.subscribers == before.subscribers
      && after.active == (if packages[k].isActive then before.active - 1 else before.active + 1)
  {
    var after := Toggle(packages, k + 1);
    assert after == packages[k := Flip(packages[k])];
    FilterReplaceOne(packages, k, Flip(packages[k]), IsActive());
    SumPointwise(packages, after, CustomerCountOf);
  }

  /** The screen's initial packages. */
  function MockPackages(): seq<Package> {
    [ Package(1, "Basic Home", "5 Mbps", 1500, "Perfect for basic browsing and social media", true, 45),
      Package(2, "Premium Home", "10 Mbps", 2500, "Great for streaming and multiple devices", true, 72),
      Package(3, "Business Starter", "20 Mbps", 4000, "Ideal for small businesses and remote work", true, 28),
      Package(4, "Enterprise", "50 Mbps", 8000, "For large businesses with high bandwidth needs", true, 11) ]
  }

  /** The initial list is numbered 1..4. */
  lemma MockWellNumbered()
    ensures WellNumbered(MockPackages())
  {
  }
}

=== FILE: payment_prompt_dialog.dfy ===
/** The refactored payment-prompt dialog: it builds the pending record from the
    ledger length it is given and hands it to the screen through `onSendPrompt`. */
module PaymentPromptDialog {
  import opened Strings
  import opened Ids
  import opened Payments
  import PaymentTracking

  /** `handleSendPaymentPrompt`: no callback, the form kept and the dialog left
      open for an incomplete form; otherwise exactly one call, with the pending
      record `MakePrompt` builds, whose id and defaulted invoice id carry the
      number `paymentsCount + 1`, then the form reset and `onClose` called. */
  function HandleSendPaymentPrompt(paymentsCount: nat, form: PromptForm, today: string, now: nat): (r: Submission<PromptForm>)
    requires IsDecimal(form.amount)
    ensures !PromptFormComplete(form) ==> r == Submission([], form, false, MissingInformation)
    ensures PromptFormComplete(form) ==>
      && r.emitted == [MakePrompt(paymentsCount, form, today, now)]
      && r.emitted[0].status == Pending
      && r.emitted[0].paymentMethod.Promptable()
      && r.emitted[0].id == PaymentId(paymentsCount + 1)
      && (form.invoiceId == "" ==> r.emitted[0].invoiceId == InvoiceId(paymentsCount + 1))
      && r.emitted[0].reference == PromptReference(form.paymentMethod, now)
      && r.form == BlankPromptForm && r.closeRequested
      && r.notice == PaymentRequestSent(form.phoneNumber, MethodTag(form.paymentMethod))
  {
    if !PromptFormComplete(form) then
      Submission([], form, false, MissingInformation)
    else
      Submission([MakePrompt(paymentsCount, form, today, now)], BlankPromptForm, true,
                 PaymentRequestSent(form.phoneNumber, MethodTag(form.paymentMethod)))
  }

  /** Given the same ledger length, date and timestamp, and with `onClose`
      closing the dialog, the dialog leaves the screen exactly as the screen's
      inline handler does. */
  lemma AgreesWithScreen(payments: seq<Payment>, form: PromptForm, dialogOpen: bool, today: string, now: nat)
    requires IsDecimal(form.amount)
    ensures var sub := HandleSendPaymentPrompt(|payments|, form, today, now);
      PaymentTracking.SendPaymentPrompt(payments, form, dialogOpen, today, now)
        == PaymentTracking.LedgerStep(payments + sub.emitted, sub.form, dialogOpen && !sub.closeRequested, sub.notice)
  {
  }
}

=== FILE: payment_tracking.dfy ===
/** The payment screen's own handlers: manual entry and payment prompt, each
    guarded by a required-field check and appending one record to the ledger. */
module PaymentTracking {
  import opened Strings
  import opened Payments

  /** The screen after a handler has run: the ledger, the handler's form, whether
      its dialog is open, and the notification raised. */
  datatype LedgerStep<F> = LedgerStep(payments: seq<Payment>, form: F, dialogOpen: bool, notice: Notice)

  /** `handleAddPayment`: an incomplete form leaves the ledger, the form and the
      dialog as they were; a complete one appends exactly one completed record,
      numbered after the ledger's length, leaves every earlier record in place,
      resets the form and closes the dialog. Only emptiness is checked, so an
      amount of "0" is accepted. */
  function AddPayment(payments: seq<Payment>, form: ManualForm, dialogOpen: bool, today: string): (r: LedgerStep<ManualForm>)
    requires IsDecimal(form.amount)
    ensures !ManualFormComplete(form) ==> r == LedgerStep(payments, form, dialogOpen, MissingInformation)
    ensures ManualFormComplete(form) ==>
      && |r.payments| == |payments| + 1
      && r.payments[..|payments|] == payments
      && r.payments[|payments|] == MakeManual(|payments|, form, today)
      && r.payments[|payments|].status == Completed
      && r.form == BlankManualForm && !r.dialogOpen
      && r.notice == PaymentRecorded(ParseDecimal(form.amount))
  {
    if !ManualFormComplete(form) then
      LedgerStep(payments, form, dialogOpen, MissingInformation)
    else
      var p := MakeManual(|payments|, form, today);
      LedgerStep(payments + [p], BlankManualForm, false, PaymentRecorded(p.amount))
  }

  /** `handleSendPaymentPrompt`: an incomplete form leaves the ledger, the form
      and the dialog as they were; a complete one appends exactly one pending
      record with the synthesized reference, resets the form and closes the
      dialog. The phone number appears only in the notification. */
  function SendPaymentPrompt(payments: seq<Payment>, form: PromptForm, dialogOpen: bool, today: string, now: nat): (r: LedgerStep<PromptForm>)
    requires IsDecimal(form.amount)
    ensures !PromptFormComplete(form) ==> r == LedgerStep(payments, form, dialogOpen, MissingInformation)
    ensures PromptFormComplete(form) ==>
      && |r.payments| == |payments| + 1
      && r.payments[..|payments|] == payments
      && r.payments[|payments|] == MakePrompt(|payments|, form, today, now)
      && r.payments[|payments|].status == Pending
      && r.form == BlankPromptForm && !r.dialogOpen
      && r.notice == PaymentRequestSent(form.phoneNumber, MethodTag(form.paymentMethod))
  {
    if !PromptFormComplete(form) then
      LedgerStep(payments, form, dialogOpen, MissingInformation)
    else
      LedgerStep(payments + [MakePrompt(|payments|, form, today, now)], BlankPromptForm, false,
                 PaymentRequestSent(form.phoneNumber, MethodTag(form.paymentMethod)))
  }

  /** Recording a manual payment raises the collected total by the parsed amount
      and moves only the total of the chosen method; a rejected form moves nothing. */
  lemma AddPaymentUpdatesTotals(payments: seq<Payment>, form: ManualForm, dialogOpen: bool, today: string)
    requires IsDecimal(form.amount)
    ensures var after := AddPayment(payments, form, dialogOpen, today).payments;
      && TotalAmount(after) == TotalAmount(payments) + (if ManualFormComplete(form) then ParseDecimal(form.amount) else 0)
      && forall m: Method :: MethodTotal(after, m)
           == MethodTotal(payments, m) + (if ManualFormComplete(form) && m == form.paymentMethod then ParseDecimal(form.amount) else 0)
  {
    if ManualFormComplete(form) {
      AppendUpdatesTotals(payments, MakeManual(|payments|, form, today));
    }
  }

  /** Both handlers keep a well-numbered ledger well numbered, so the ids of a
      ledger built only through them stay pairwise distinct. */
  lemma HandlersKeepNumbering(payments: seq<Payment>, manual: ManualForm, prompt: PromptForm,
                              dialogOpen: bool, today: string, now: nat)
    requires WellNumbered(payments)
    requires IsDecimal(manual.amount) && IsDecimal(prompt.amount)
    ensures WellNumbered(AddPayment(payments, manual, dialogOpen, today).payments)
    ensures WellNumbered(SendPaymentPrompt(payments, prompt, dialogOpen, today, now).payments)
  {
    if ManualFormComplete(manual) {
      AppendKeepsNumbering(payments, MakeManual(|payments|, manual, today));
    }
    if PromptFormComplete(prompt) {
      AppendKeepsNumbering(payments, MakePrompt(|payments|, prompt, today, now));
    }
  }
}

=== FILE: payments.dfy ===
/** The payment record shared by the payment screen and its dialogs, the two
    record builders every creation path goes through (manual entry and payment
    prompt), the search/method filter of the payment table, and the totals shown
    above it. */
module Payments {
  import opened Wrappers
  import opened Strings
  import opened Seqs
  import opened Ids

  // ---------------------------------------------------------------------------
  // Data model
  // ---------------------------------------------------------------------------

  datatype Method = Mpesa | Airtel | Tkash | Bank | Cash {

    /** The value stored in a payment record's `method` field. */
    function Name(): string {
      match this
      case Mpesa => "mpesa"
      case Airtel => "airtel"
      case Tkash => "tkash"
      case Bank => "bank"
      case Cash => "cash"
    }

    /** The mobile-money services a payment prompt can be sent through. */
    predicate Promptable() {
      this == Mpesa || this == Airtel || this == Tkash
    }
  }

  /** The prompt form's method selector offers the mobile-money services only. */
  type PromptMethod = m: Method | m.Promptable() witness Mpesa

  datatype PaymentStatus = Completed | Pending | Failed

  datatype Payment = Payment(
    id: string,
    customerName: string,
    amount: nat,
    paymentMethod: Method,
    reference: string,
    date: string,
    invoiceId: string,
    status: PaymentStatus)

  /** The manual-entry form, every field as typed by the operator. */
  datatype ManualForm = ManualForm(
    customerName: string,
    amount: string,
    paymentMethod: Method,
    reference: string,
    invoiceId: string)

  /** The payment-prompt form, every field as typed by the operator. */
  datatype PromptForm = PromptForm(
    customerName: string,
    phoneNumber: string,
    amount: string,
    paymentMethod: PromptMethod,
    invoiceId: string)

  /** The manual-entry form as the dialog opens and as it is reset after a record. */
  const BlankManualForm: ManualForm := ManualForm("", "", Mpesa, "", "")

  /** The payment-prompt form as the dialog opens and as it is reset after a prompt. */
  const BlankPromptForm: PromptForm := PromptForm("", "", "", Mpesa, "")

  /** Operator notifications of the payment screens (the toasts). */
  datatype Notice =
    | MissingInformation
    | PaymentRecorded(amount: nat)
    | PaymentRequestSent(phoneNumber: string, service: string)
    | STKPushSent(customerMessage: string)
    | STKPushFailed

  /** What one submission of a payment dialog hands back to the screen: the
      records passed to its callback, in call order, the dialog's form afterwards,
      whether it called `onClose`, and the notification raised. */
  datatype Submission<F> = Submission(emitted: seq<Payment>, form: F, closeRequested: bool, notice: Notice)

  // ---------------------------------------------------------------------------
  // Identifiers and references
  // ---------------------------------------------------------------------------

  const PendingInfix: string := "-PENDING-"

  /** `supplied || fallback` on a string: the fallback replaces the empty string only. */
  function OrElse(supplied: string, fallback: string): string {
    if supplied != "" then supplied else fallback
  }

  /** `method.toUpperCase()`. */
  function MethodTag(m: Method): string {
    ToUpper(m.Name())
  }

  lemma MethodTags()
    ensures MethodTag(Mpesa) == "MPESA"
    ensures MethodTag(Airtel) == "AIRTEL"
    ensures MethodTag(Tkash) == "TKASH"
  {
    assert MethodTag(Mpesa) == ['M', 'P', 'E', 'S', 'A'];
    assert MethodTag(Airtel) == ['A', 'I', 'R', 'T', 'E', 'L'];
    assert MethodTag(Tkash) == ['T', 'K', 'A', 'S', 'H'];
  }

  /** The placeholder reference of a prompted payment: the upper-cased service,
      `-PENDING-`, and the millisecond timestamp `now`. The timestamp can be read
      back from the reference. */
  function PromptReference(m: PromptMethod, now: nat): (r: string)
    ensures IsPrefix(MethodTag(m) + PendingInfix, r)
    ensures var k := |MethodTag(m) + PendingInfix|;
      IsDecimal(r[k..]) && ParseDecimal(r[k..]) == now
  {
    var r := MethodTag(m) + PendingInfix + NatToDecimal(now);
    DecimalRoundTrip(now);
    assert r[..|MethodTag(m) + PendingInfix|] == MethodTag(m) + PendingInfix;
    assert r[|MethodTag(m) + PendingInfix|..] == NatToDecimal(now);
    r
  }

  /** Two prompts through the same service get the same reference only when they
      carry the same timestamp. */
  lemma PromptReferenceInjective(m: PromptMethod, t1: nat, t2: nat)
    ensures PromptReference(m, t1) == PromptReference(m, t2) <==> t1 == t2
  {
    var k := |MethodTag(m) + PendingInfix|;
    if PromptReference(m, t1) == PromptReference(m, t2) {
      assert PromptReference(m, t1)[k..] == PromptReference(m, t2)[k..];
    }
  }

  // ---------------------------------------------------------------------------
  // Record builders
  // ---------------------------------------------------------------------------

  predicate ManualFormComplete(f: ManualForm) {
    f.customerName != "" && f.amount != "" && f.reference != ""
  }

  predicate PromptFormComplete(f: PromptForm) {
    f.customerName != "" && f.phoneNumber != "" && f.amount != ""
  }

  /** The record a manual entry creates when `count` payments exist already: the
      next sequence number for the id and, unless one was typed, for the invoice
      id; the form's fields copied; status completed. */
  function MakeManual(count: nat, form: ManualForm, today: string): (p: Payment)
    requires form.amount != "" && IsDecimal(form.amount)
    ensures p.status == Completed
    ensures p.id == PaymentId(count + 1) && SequenceNumber(PaymentPrefix, p.id) == Some(count + 1)
    ensures form.invoiceId != "" ==> p.invoiceId == form.invoiceId
    ensures form.invoiceId == "" ==> p.invoiceId == InvoiceId(count + 1)
    ensures form.invoiceId == "" ==> SequenceNumber(InvoicePrefix, p.invoiceId) == Some(count + 1)
    ensures p.customerName == form.customerName && p.paymentMethod == form.paymentMethod
    ensures p.reference == form.reference && p.date == today
    ensures p.amount == ParseDecimal(form.amount)
  {
    SeqIdRoundTrip(PaymentPrefix, count + 1);
    SeqIdRoundTrip(InvoicePrefix, count + 1);
    Payment(
      PaymentId(count + 1),
      form.customerName,
      ParseDecimal(form.amount),
      form.paymentMethod,
      form.reference,
      today,
      OrElse(form.invoiceId, InvoiceId(count + 1)),
      Completed)
  }

  /** The record a payment prompt creates when `count` payments exist already:
      numbered like a manual entry, with the synthesized pending reference and
      status pending. The phone number is not part of it. */
  function MakePrompt(count: nat, form: PromptForm, today: string, now: nat): (p: Payment)
    requires form.amount != "" && IsDecimal(form.amount)
    ensures p.status == Pending
    ensures p.paymentMethod.Promptable() && p.paymentMethod == form.paymentMethod
    ensures p.id == PaymentId(count + 1) && SequenceNumber(PaymentPrefix, p.id) == Some(count + 1)
    ensures form.invoiceId != "" ==> p.invoiceId == form.invoiceId
    ensures form.invoiceId == "" ==> p.invoiceId == InvoiceId(count + 1)
    ensures form.invoiceId == "" ==> SequenceNumber(InvoicePrefix, p.invoiceId) == Some(count + 1)
    ensures p.reference == PromptReference(form.paymentMethod, now)
    ensures IsPrefix(MethodTag(form.paymentMethod) + PendingInfix, p.reference)
    ensures p.customerName == form.customerName && p.date == today
    ensures p.amount == ParseDecimal(form.amount)
  {
    SeqIdRoundTrip(PaymentPrefix, count + 1);
    SeqIdRoundTrip(InvoicePrefix, count + 1);
    Payment(
      PaymentId(count + 1),
      form.customerName,
      ParseDecimal(form.amount),
      form.paymentMethod,
      PromptReference(form.paymentMethod, now),
      today,
      OrElse(form.invoiceId, InvoiceId(count + 1)),
      Pending)
  }

  /** The phone number reaches the notification only: the record does not depend on it. */
  lemma PromptRecordIgnoresPhone(count: nat, form: PromptForm, phone: string, today: string, now: nat)
    requires form.amount != "" && IsDecimal(form.amount)
    ensures MakePrompt(count, form.(phoneNumber := phone), today, now) == MakePrompt(count, form, today, now)
  {
  }

  /** The id and the defaulted invoice id carry the same sequence number. */
  lemma DefaultInvoiceMatchesId(count: nat, form: ManualForm, today: string)
    requires form.amount != "" && IsDecimal(form.amount) && form.invoiceId == ""
    ensures SequenceNumber(PaymentPrefix, MakeManual(count, form, today).id)
         == SequenceNumber(InvoicePrefix, MakeManual(count, form, today).invoiceId)
  {
  }

  // ---------------------------------------------------------------------------
  // Ledger numbering
  // ---------------------------------------------------------------------------

  /** The i-th record (from 0) carries sequence number i + 1 in its id, as every
      creation path numbers it when it starts from a ledger numbered the same way. */
  predicate WellNumbered(payments: seq<Payment>) {
    forall i :: 0 <= i < |payments| ==> SequenceNumber(PaymentPrefix, payments[i].id) == Some(i + 1)
  }

  /** In a well-numbered ledger no two records share an id. */
  lemma WellNumberedIdsDistinct(payments: seq<Payment>)
    requires WellNumbered(payments)
    ensures forall i, j :: 0 <= i < j < |payments| ==> payments[i].id != payments[j].id
  {
  }

  /** Appending a record numbered for a ledger of `|payments|` records keeps the
      ledger well numbered. */
  lemma AppendKeepsNumbering(payments: seq<Payment>, p: Payment)
    requires WellNumbered(payments)
    requires SequenceNumber(PaymentPrefix, p.id) == Some(|payments| + 1)
    ensures WellNumbered(payments + [p])
  {
  }

  // ---------------------------------------------------------------------------
  // Search and method filter
  // ---------------------------------------------------------------------------

  datatype MethodFilter = AllMethods | OnlyMethod(paymentMethod: Method)

  /** The lower-cased customer name or reference contains the lower-cased term. */
  predicate MatchesSearch(p: Payment, term: string) {
    || Contains(ToLower(p.customerName), ToLower(term))
    || Contains(ToLower(p.reference), ToLower(term))
  }

  predicate MatchesMethod(p: Payment, f: MethodFilter) {
    f.AllMethods? || p.paymentMethod == f.paymentMethod
  }

  function Shown(term: string, f: MethodFilter): Payment -> bool {
    (p: Payment) => MatchesSearch(p, term) && MatchesMethod(p, f)
  }

  /** The rows of the payment table: the records matching both the search term
      and the method filter, each as often as in the ledger, in ledger order. An
      empty term under "all" shows the whole ledger. */
  function FilteredPayments(payments: seq<Payment>, term: string, f: MethodFilter): (r: seq<Payment>)
    ensures IsSubsequence(r, payments)
    ensures forall p :: p in r <==> p in payments && MatchesSearch(p, term) && MatchesMethod(p, f)
    ensures forall p :: multiset(r)[p] == if MatchesSearch(p, term) && MatchesMethod(p, f) then multiset(payments)[p] else 0
    ensures term == "" && f == AllMethods ==> r == payments
  {
    FilterIsSubsequence(payments, Shown(term, f));
    FilterExactly(payments, term, f);
    UnfilteredShowsAll(payments);
    Filter(payments, Shown(term, f))
  }

  lemma FilterExactly(payments: seq<Payment>, term: string, f: MethodFilter)
    ensures forall p :: p in Filter(payments, Shown(term, f)) <==> p in payments && MatchesSearch(p, term) && MatchesMethod(p, f)
    ensures forall p :: multiset(Filter(payments, Shown(term, f)))[p]
                     == if MatchesSearch(p, term) && MatchesMethod(p, f) then multiset(payments)[p] else 0
  {
    forall p
      ensures p in Filter(payments, Shown(term, f)) <==> p in payments && MatchesSearch(p, term) && MatchesMethod(p, f)
      ensures multiset(Filter(payments, Shown(term, f)))[p]
           == if MatchesSearch(p, term) && MatchesMethod(p, f) then multiset(payments)[p] else 0
    {
      FilterMembership(payments, Shown(term, f), p);
      FilterMultiplicity(payments, Shown(term, f), p);
    }
  }

  lemma UnfilteredShowsAll(payments: seq<Payment>)
    ensures Filter(payments, Shown("", AllMethods)) == payments
  {
    assert ToLower("") == "";
    forall i | 0 <= i < |payments|
      ensures Shown("", AllMethods)(payments[i])
    {
      ContainsEmpty(ToLower(payments[i].customerName));
    }
    FilterKeepsAll(payments, Shown("", AllMethods));
  }

  /** The search ignores the case of the term: an upper-cased term shows the same rows. */
  lemma SearchIgnoresCase(payments: seq<Payment>, term: string, f: MethodFilter)
    ensures FilteredPayments(payments, ToUpper(term), f) == FilteredPayments(payments, term, f)
  {
    LowerForgetsCase(term);
    FilterCongruent(payments, Shown(ToUpper(term), f), Shown(term, f));
  }

  // ---------------------------------------------------------------------------
  // Totals
  // ---------------------------------------------------------------------------

  function AmountOf(p: Payment): int {
    p.amount
  }

  function ByMethod(m: Method): Payment -> bool {
    (p: Payment) => p.paymentMethod == m
  }

  /** `totalPayments`: the `reduce` of the given records' amounts, never negative. */
  function TotalAmount(payments: seq<Payment>): (t: int)
    ensures t == Sum(payments, AmountOf)
    ensures t >= 0
  {
    SumNonNegative(payments, AmountOf);
    Sum(payments, AmountOf)
  }

  /** The per-method total of the whole ledger: the collected total of the records
      with that method, never more than the ledger's total. */
  function MethodTotal(payments: seq<Payment>, m: Method): (t: int)
    ensures t == TotalAmount(Filter(payments, ByMethod(m)))
    ensures 0 <= t <= TotalAmount(payments)
  {
    var yes := Filter(payments, ByMethod(m));
    var no := Filter(payments, Not(ByMethod(m)));
    SumPartition(payments, AmountOf, ByMethod(m));
    NonNegativeAmounts(yes);
    NonNegativeAmounts(no);
    Sum(yes, AmountOf)
  }

  lemma NonNegativeAmounts(s: seq<Payment>)
    ensures Sum(s, AmountOf) >= 0
  {
    SumNonNegative(s, AmountOf);
  }

  /** With an empty search term and "all", the collected total equals the five
      per-method totals added up: every record has exactly one method. */
  lemma TotalsPartitionByMethod(payments: seq<Payment>)
    ensures TotalAmount(FilteredPayments(payments, "", AllMethods))
         == MethodTotal(payments, Mpesa) + MethodTotal(payments, Airtel) + MethodTotal(payments, Tkash)
          + MethodTotal(payments, Bank) + MethodTotal(payments, Cash)
  {
    FiveWaySplit(payments);
  }

  /** Recording one more payment raises the total by its amount and changes only
      the total of its own method. */
  lemma AppendUpdatesTotals(payments: seq<Payment>, p: Payment)
    ensures TotalAmount(payments + [p]) == TotalAmount(payments) + p.amount
    ensures forall m: Method :: MethodTotal(payments + [p], m)
                             == MethodTotal(payments, m) + (if p.paymentMethod == m then p.amount else 0)
  {
    assert [p][1..] == [];
    SumConcat(payments, [p], AmountOf);
    forall m: Method
      ensures MethodTotal(payments + [p], m)
           == MethodTotal(payments, m) + (if p.paymentMethod == m then p.amount else 0)
    {
      FilterConcat(payments, [p], ByMethod(m));
      var single := Filter([p], ByMethod(m));
      assert single == if p.paymentMethod == m then [p] else [];
      SumConcat(Filter(payments, ByMethod(m)), single, AmountOf);
    }
  }

  lemma {:induction false} FiveWaySplit(s: seq<Payment>)
    ensures Sum(s, AmountOf)
         == Sum(Filter(s, ByMethod(Mpesa)), AmountOf) + Sum(Filter(s, ByMethod(Airtel)), AmountOf)
          + Sum(Filter(s, ByMethod(Tkash)), AmountOf) + Sum(Filter(s, ByMethod(Bank)), AmountOf)
          + Sum(Filter(s, ByMethod(Cash)), AmountOf)
  {
    if |s| > 0 {
      FiveWaySplit(s[1..]);
      forall m: Method
        ensures Sum(Filter(s, ByMethod(m)), AmountOf)
             == (if s[0].paymentMethod == m then s[0].amount else 0) + Sum(Filter(s[1..], ByMethod(m)), AmountOf)
      {
        var head := if ByMethod(m)(s[0]) then [s[0]] else [];
        SumConcat(head, Filter(s[1..], ByMethod(m)), AmountOf);
      }
    }
  }
}

=== FILE: quick_stk_push_dialog.dfy ===
/** The quick STK Push dialog: after a required-field check it marks itself busy,
    asks the provider to push a prompt to the customer's phone, and creates a
    pending M-PESA record only once the provider has answered. An exception from
    the provider creates nothing. Either way the dialog ends not busy. */
module QuickSTKPushDialog {
  import opened Wrappers
  import opened Strings
  import opened Ids
  import opened Payments
  import opened MpesaService

  datatype QuickForm = QuickForm(phoneNumber: string, amount: string, customerName: string)

  predicate QuickFormComplete(f: QuickForm) {
    f.phoneNumber != "" && f.amount != "" && f.customerName != ""
  }

  /** The observable steps of one submission, in order: `ResetForm` empties the
      three fields and `CloseDialog` calls `onClose`. */
  datatype Effect =
    | SetProcessing(busy: bool)
    | CallProvider(request: STKPushRequest)
    | PaymentCreated(payment: Payment)
    | Notify(notice: Notice)
    | ResetForm
    | CloseDialog

  /** The effects that may follow the provider call. */
  predicate AfterCall(e: Effect) {
    e.PaymentCreated? || e.Notify? || e.ResetForm? || e.CloseDialog?
  }

  /** The provider requests among the effects, in order. */
  function Calls(trace: seq<Effect>): seq<STKPushRequest> {
    if |trace| == 0 then []
    else (if trace[0].CallProvider? then [trace[0].request] else []) + Calls(trace[1..])
  }

  /** The records passed to `onPaymentCreated`, in order. */
  function Created(trace: seq<Effect>): seq<Payment> {
    if |trace| == 0 then []
    else (if trace[0].PaymentCreated? then [trace[0].payment] else []) + Created(trace[1..])
  }

  /** `isProcessing` after the effects have run, starting from not busy. */
  function Processing(trace: seq<Effect>): bool {
    if |trace| == 0 then false
    else if trace[|trace| - 1].SetProcessing? then trace[|trace| - 1].busy
    else Processing(trace[..|trace| - 1])
  }

  /** Nothing that settles the submission (a record, a notice, the form reset,
      the close) happens before the provider has been called. */
  predicate SettledOnlyAfterCall(trace: seq<Effect>) {
    forall i :: 0 <= i < |trace| && AfterCall(trace[i]) ==>
      exists j :: 0 <= j < i && trace[j].CallProvider?
  }

  /** The request the dialog sends: the invoice id for sequence number
      `paymentsCount + 1` as account reference, "Payment for <name>" as description. */
  function PushRequest(paymentsCount: nat, form: QuickForm): (req: STKPushRequest)
    requires IsDecimal(form.amount)
    ensures req.phoneNumber == form.phoneNumber && req.amount == ParseDecimal(form.amount)
    ensures req.accountReference == InvoiceId(paymentsCount + 1)
    ensures SequenceNumber(InvoicePrefix, req.accountReference) == Some(paymentsCount + 1)
    ensures IsPrefix("Payment for ", req.transactionDesc)
    ensures req.transactionDesc[|"Payment for "|..] == form.customerName
  {
    SeqIdRoundTrip(InvoicePrefix, paymentsCount + 1);
    var desc := "Payment for " + form.customerName;
    assert desc[..|"Payment for "|] == "Payment for ";
    STKPushRequest(form.phoneNumber, ParseDecimal(form.amount), InvoiceId(paymentsCount + 1), desc)
  }

  /** The record created from a provider answer: pending, M-PESA, numbered like the
      invoice it was requested for, with the checkout id as reference. */
  function PendingRecord(paymentsCount: nat, form: QuickForm, today: string, response: STKPushResponse): (p: Payment)
    requires IsDecimal(form.amount)
    ensures p.status == Pending && p.paymentMethod == Mpesa
    ensures p.reference == response.checkoutRequestID
    ensures p.invoiceId == PushRequest(paymentsCount, form).accountReference
    ensures p.amount == PushRequest(paymentsCount, form).amount
    ensures p.id == PaymentId(paymentsCount + 1)
    ensures p.customerName == form.customerName && p.date == today && p.amount == ParseDecimal(form.amount)
    ensures SequenceNumber(PaymentPrefix, p.id) == SequenceNumber(InvoicePrefix, p.invoiceId) == Some(paymentsCount + 1)
  {
    SeqIdRoundTrip(PaymentPrefix, paymentsCount + 1);
    SeqIdRoundTrip(InvoicePrefix, paymentsCount + 1);
    Payment(
      PaymentId(paymentsCount + 1),
      form.customerName,
      ParseDecimal(form.amount),
      Mpesa,
      response.checkoutRequestID,
      today,
      InvoiceId(paymentsCount + 1),
      Pending)
  }

  /** `handleQuickSTKPush` with the awaited provider call as `provider`. An
      incomplete form raises the missing-field notice and nothing else. A complete
      one calls the provider exactly once while busy, creates exactly one record if
      the provider answers and none if it throws, and ends not busy. Only an
      answer resets the form and closes the dialog; after an exception the typed
      fields stay and the dialog stays open. Exactly one of the two notices is
      raised, and every effect that settles the push comes after the call. */
  function HandleQuickSTKPush(paymentsCount: nat, form: QuickForm, today: string,
                              provider: STKPushRequest -> Reply): (trace: seq<Effect>)
    requires IsDecimal(form.amount)
    ensures !QuickFormComplete(form) ==> trace == [Notify(MissingInformation)]
    ensures !QuickFormComplete(form) ==> Calls(trace) == [] && Created(trace) == []
    ensures QuickFormComplete(form) ==>
      var req := PushRequest(paymentsCount, form);
      && Calls(trace) == [req]
      && trace[0] == SetProcessing(true)
      && (exists k :: 0 <= k < |trace| && trace[k] == CallProvider(req) && Processing(trace[..k]))
      && !Processing(trace)
      && SettledOnlyAfterCall(trace)
      && (provider(req).Threw? ==>
            && Created(trace) == [] && Notify(STKPushFailed) in trace
            && (forall m :: Notify(STKPushSent(m)) !in trace)
            && ResetForm !in trace && CloseDialog !in trace)
      && (provider(req).Answered? ==>
            && Created(trace) == [PendingRecord(paymentsCount, form, today, provider(req).response)]
            && Notify(STKPushSent(provider(req).response.customerMessage)) in trace
            && Notify(STKPushFailed) !in trace
            && ResetForm in trace && CloseDialog in trace)
  {
    if !QuickFormComplete(form) then
      [Notify(MissingInformation)]
    else
      var req := PushRequest(paymentsCount, form);
      var outcome := Outcome(paymentsCount, form, today, provider(req));
      WrapFacts(req, outcome);
      WrapMembership(req, outcome, ResetForm);
      WrapMembership(req, outcome, CloseDialog);
      WrapNotices(req, outcome);
      Wrap(req, outcome)
  }

  /** What follows the provider call: on an answer, the record, the success
      notice, the form reset and the dialog closed; on an exception, the failure
      notice alone. */
  function Outcome(paymentsCount: nat, form: QuickForm, today: string, reply: Reply): (out: seq<Effect>)
    requires IsDecimal(form.amount)
    ensures forall i :: 0 <= i < |out| ==> AfterCall(out[i])
    ensures reply.Threw? ==>
      && Created(out) == [] && Notify(STKPushFailed) in out
      && (forall m :: Notify(STKPushSent(m)) !in out)
      && ResetForm !in out && CloseDialog !in out
    ensures reply.Answered? ==>
      && Created(out) == [PendingRecord(paymentsCount, form, today, reply.response)]
      && Notify(STKPushSent(reply.response.customerMessage)) in out
      && Notify(STKPushFailed) !in out
      && ResetForm in out && CloseDialog in out
  {
    match reply
    case Answered(response) =>
      var p := PendingRecord(paymentsCount, form, today, response);
      AnsweredEffects(p, response.customerMessage);
      [PaymentCreated(p), Notify(STKPushSent(response.customerMessage)), ResetForm, CloseDialog]
    case Threw =>
      CreatedSingleton(Notify(STKPushFailed));
      [Notify(STKPushFailed)]
  }

  /** The submission around the provider call: busy, call, outcome, not busy. */
  function Wrap(req: STKPushRequest, outcome: seq<Effect>): seq<Effect> {
    [SetProcessing(true), CallProvider(req)] + outcome + [SetProcessing(false)]
  }

  /** The bookkeeping behind the handler's contract. */
  lemma WrapFacts(req: STKPushRequest, outcome: seq<Effect>)
    requires forall i :: 0 <= i < |outcome| ==> AfterCall(outcome[i])
    ensures var trace := Wrap(req, outcome);
      && Calls(trace) == [req]
      && Created(trace) == Created(outcome)
      && trace[0] == SetProcessing(true)
      && trace[1] == CallProvider(req) && Processing(trace[..1])
      && !Processing(trace)
      && SettledOnlyAfterCall(trace)
      && (forall e :: e in outcome ==> e in trace)
  {
    WrapCalls(req, outcome);
    WrapCreated(req, outcome);
    WrapOrder(req, outcome);
  }

  /** The busy flag is raised before the call and lowered last, and every
      record follows the call. */
  lemma WrapOrder(req: STKPushRequest, outcome: seq<Effect>)
    ensures var trace := Wrap(req, outcome);
      && trace[0] == SetProcessing(true)
      && trace[1] == CallProvider(req) && Processing(trace[..1])
      && !Processing(trace)
      && SettledOnlyAfterCall(trace)
  {
    var trace := Wrap(req, outcome);
    assert trace[..1] == [SetProcessing(true)];
    assert trace[|trace| - 1] == SetProcessing(false);
    forall i | 0 <= i < |trace| && trace[i].PaymentCreated?
      ensures exists j :: 0 <= j < i && trace[j].CallProvider?
    {
      assert trace[1].CallProvider?;
    }
  }

  /** Apart from the busy flag and the call, the trace holds exactly the outcome's effects. */
  lemma WrapMembership(req: STKPushRequest, outcome: seq<Effect>, e: Effect)
    requires !e.SetProcessing? && !e.CallProvider?
    ensures e in Wrap(req, outcome) <==> e in outcome
  {
    var trace := Wrap(req, outcome);
    if e in trace {
      var i :| 0 <= i < |trace| && trace[i] == e;
      assert 2 <= i < |trace| - 1;
      assert outcome[i - 2] == e;
    }
    if e in outcome {
      var i :| 0 <= i < |outcome| && outcome[i] == e;
      assert trace[i + 2] == e;
    }
  }

  /** Every notice is in the trace exactly when it is in the outcome. */
  lemma WrapNotices(req: STKPushRequest, outcome: seq<Effect>)
    ensures forall n: Notice :: Notify(n) in Wrap(req, outcome) <==> Notify(n) in outcome
  {
    forall n: Notice
      ensures Notify(n) in Wrap(req, outcome) <==> Notify(n) in outcome
    {
      WrapMembership(req, outcome, Notify(n));
    }
  }

  /** The effects of an answered push: one record, then effects that create nothing. */
  lemma AnsweredEffects(p: Payment, message: string)
    ensures var out := [PaymentCreated(p), Notify(STKPushSent(message)), ResetForm, CloseDialog];
      && Created(out) == [p]
      && forall i :: 0 <= i < |out| ==> AfterCall(out[i])
  {
    var rest := [Notify(STKPushSent(message)), ResetForm, CloseDialog];
    NoneCreated(rest);
    CreatedSingleton(PaymentCreated(p));
    CreatedConcat([PaymentCreated(p)], rest);
    assert [PaymentCreated(p)] + rest == [PaymentCreated(p), Notify(STKPushSent(message)), ResetForm, CloseDialog];
  }

  lemma WrapCalls(req: STKPushRequest, outcome: seq<Effect>)
    requires forall i :: 0 <= i < |outcome| ==> AfterCall(outcome[i])
    ensures Calls(Wrap(req, outcome)) == [req]
  {
    var head := [SetProcessing(true), CallProvider(req)];
    var tail := [SetProcessing(false)];
    assert Wrap(req, outcome) == head + (outcome + tail);
    assert head[1..][1..] == [];
    assert Calls(head[1..]) == [req] + Calls(head[1..][1..]);
    assert Calls(head) == [req];
    assert Calls(tail) == [] + Calls(tail[1..]);
    NoCallsNoneCreatedStrays(outcome);
    CallsConcat(head, outcome + tail);
    CallsConcat(outcome, tail);
  }

  lemma WrapCreated(req: STKPushRequest, outcome: seq<Effect>)
    ensures Created(Wrap(req, outcome)) == Created(outcome)
  {
    var head := [SetProcessing(true), CallProvider(req)];
    var tail := [SetProcessing(false)];
    assert Wrap(req, outcome) == head + (outcome + tail);
    assert head[1..][1..] == [];
    assert Created(head[1..]) == [] + Created(head[1..][1..]);
    assert Created(head) == [];
    assert Created(tail) == [] + Created(tail[1..]);
    CreatedConcat(head, outcome + tail);
    CreatedConcat(outcome, tail);
  }

  lemma {:induction false} NoCallsNoneCreatedStrays(outcome: seq<Effect>)
    requires forall i :: 0 <= i < |outcome| ==> AfterCall(outcome[i])
    ensures Calls(outcome) == []
  {
    if |outcome| > 0 {
      NoCallsNoneCreatedStrays(outcome[1..]);
    }
  }

  /** Effects that create nothing contribute no record. */
  lemma {:induction false} NoneCreated(trace: seq<Effect>)
    requires forall i :: 0 <= i < |trace| ==> !trace[i].PaymentCreated?
    ensures Created(trace) == []
  {
    if |trace| > 0 {
      NoneCreated(trace[1..]);
    }
  }

  lemma CreatedSingleton(e: Effect)
    ensures Created([e]) == if e.PaymentCreated? then [e.payment] else []
  {
    assert [e][1..] == [];
  }

  lemma {:induction false} CallsConcat(a: seq<Effect>, b: seq<Effect>)
    ensures Calls(a + b) == Calls(a) + Calls(b)
  {
    if |a| > 0 {
      assert (a + b)[1..] == a[1..] + b;
      CallsConcat(a[1..], b);
    } else {
      assert a + b == b;
    }
  }

  lemma {:induction false} CreatedConcat(a: seq<Effect>, b: seq<Effect>)
    ensures Created(a + b) == Created(a) + Created(b)
  {
    if |a| > 0 {
      assert (a + b)[1..] == a[1..] + b;
      CreatedConcat(a[1..], b);
    } else {
      assert a + b == b;
    }
  }

  /** The screen's `onPaymentCreated` appends each created record to the ledger. */
  function ApplyToLedger(payments: seq<Payment>, trace: seq<Effect>): seq<Payment> {
    payments + Created(trace)
  }

  /** When the provider throws, the ledger is unchanged. */
  lemma FailureLeavesLedger(payments: seq<Payment>, form: QuickForm, today: string,
                            provider: STKPushRequest -> Reply)
    requires IsDecimal(form.amount)
    requires provider(PushRequest(|payments|, form)).Threw?
    ensures ApplyToLedger(payments, HandleQuickSTKPush(|payments|, form, today, provider)) == payments
  {
  }

  /** Against the service stub, a complete form always adds exactly one pending
      M-PESA record whose reference is a `ws_CO_` checkout id, and the ledger stays
      well numbered. */
  lemma StubAlwaysRecords(payments: seq<Payment>, form: QuickForm, today: string, now: nat)
    requires IsDecimal(form.amount) && QuickFormComplete(form)
    requires WellNumbered(payments)
    ensures var ledger := ApplyToLedger(payments, HandleQuickSTKPush(|payments|, form, today, Stub(now)));
      && |ledger| == |payments| + 1
      && ledger[..|payments|] == payments
      && ledger[|payments|].status == Pending
      && IsPrefix(CheckoutPrefix, ledger[|payments|].reference)
      && WellNumbered(ledger)
  {
    var req := PushRequest(|payments|, form);
    var p := PendingRecord(|payments|, form, today, InitiateSTKPush(req, now));
    assert ApplyToLedger(payments, HandleQuickSTKPush(|payments|, form, today, Stub(now))) == payments + [p];
    AppendKeepsNumbering(payments, p);
  }
}

=== FILE: reports.dfy ===
/** The outstanding-payments report: each overdue account gets a priority from
    its days overdue (the label and the badge colour follow the same thresholds),
    and three figures summarise the list: the amount outstanding, the number of
    overdue accounts and the average days overdue rounded to a whole day. */
module Reports {
  import opened Wrappers
  import opened Seqs

  datatype Outstanding = Outstanding(customer: string, amount: int, daysOverdue: int, packageName: string)

  datatype Priority = Low | Medium | High {
    function Rank(): nat {
      match this
      case Low => 0
      case Medium => 1
      case High => 2
    }
  }

  /** The badge colours of the priority column. */
  datatype BadgeColour = Yellow | Orange | Red

  /** The priority label: more than 20 days overdue is high, more than 10 medium,
      anything else low. */
  function PriorityOf(daysOverdue: int): (p: Priority)
    ensures p == High <==> daysOverdue > 20
    ensures p == Medium <==> 10 < daysOverdue <= 20
    ensures p == Low <==> daysOverdue <= 10
  {
    if daysOverdue > 20 then High else if daysOverdue > 10 then Medium else Low
  }

  /** The badge colour, chosen by its own comparison chain. */
  function BadgeColourOf(daysOverdue: int): BadgeColour {
    if daysOverdue > 20 then Red else if daysOverdue > 10 then Orange else Yellow
  }

  /** The colour that goes with each priority. */
  function ColourFor(p: Priority): BadgeColour {
    match p
    case High => Red
    case Medium => Orange
    case Low => Yellow
  }

  /** More days overdue never lowers the priority. */
  lemma PriorityMonotone(a: int, b: int)
    requires a <= b
    ensures PriorityOf(a).Rank() <= PriorityOf(b).Rank()
  {
  }

  /** The badge colour always matches the label. */
  lemma BadgeAgreesWithLabel(daysOverdue: int)
    ensures BadgeColourOf(daysOverdue) == ColourFor(PriorityOf(daysOverdue))
  {
  }

  function AmountOf(o: Outstanding): int {
    o.amount
  }

  function DaysOf(o: Outstanding): int {
    o.daysOverdue
  }

  function ByPriority(p: Priority): Outstanding -> bool {
    (o: Outstanding) => PriorityOf(o.daysOverdue) == p
  }

  /** "Total Outstanding": the amounts added up. Split by priority, the three
      partial sums add up to it. */
  function TotalOutstanding(list: seq<Outstanding>): (t: int)
    ensures t == Sum(Filter(list, ByPriority(High)), AmountOf)
               + Sum(Filter(list, ByPriority(Medium)), AmountOf)
               + Sum(Filter(list, ByPriority(Low)), AmountOf)
  {
    ThreeWaySplit(list, AmountOf);
    Sum(list, AmountOf)
  }

  /** "Overdue Accounts": the length of the list, which the three priority
      groups partition. */
  function OverdueAccounts(list: seq<Outstanding>): (n: nat)
    ensures n == |Filter(list, ByPriority(High))| + |Filter(list, ByPriority(Medium))| + |Filter(list, ByPriority(Low))|
  {
    ThreeWayCount(list);
    |list|
  }

  lemma {:induction false} ThreeWaySplit(s: seq<Outstanding>, f: Outstanding -> int)
    ensures Sum(s, f)
         == Sum(Filter(s, ByPriority(High)), f) + Sum(Filter(s, ByPriority(Medium)), f)
          + Sum(Filter(s, ByPriority(Low)), f)
  {
    if |s| > 0 {
      ThreeWaySplit(s[1..], f);
      forall p: Priority
        ensures Sum(Filter(s, ByPriority(p)), f)
             == (if PriorityOf(s[0].daysOverdue) == p then f(s[0]) else 0) + Sum(Filter(s[1..], ByPriority(p)), f)
      {
        var head := if ByPriority(p)(s[0]) then [s[0]] else [];
        SumConcat(head, Filter(s[1..], ByPriority(p)), f);
      }
    }
  }

  lemma {:induction false} ThreeWayCount(s: seq<Outstanding>)
    ensures |s| == |Filter(s, ByPriority(High))| + |Filter(s, ByPriority(Medium))| + |Filter(s, ByPriority(Low))|
  {
    if |s| > 0 {
      ThreeWayCount(s[1..]);
    }
  }

  /** `Math.round(sum / n)` for a positive count `n`: the integer nearest to the
      exact mean, halves rounded up. */
  function RoundedMean(sum: int, n: int): (r: int)
    requires n > 0
    ensures 2 * r * n - n <= 2 * sum < 2 * r * n + n
  {
    var q := (2 * sum + n) / (2 * n);
    DivBounds(2 * sum + n, 2 * n);
    assert 2 * q * n == q * (2 * n);
    q
  }

  lemma DivBounds(a: int, b: int)
    requires b > 0
    ensures (a / b) * b <= a < (a / b) * b + b
  {
  }

  /** "Avg Days Overdue": the rounded mean of the days overdue, which lies within
      half a day of the exact mean; there is none for an empty list (where the
      screen would divide by zero). */
  function AverageDaysOverdue(list: seq<Outstanding>): (r: Option<int>)
    ensures r.None? <==> |list| == 0
    ensures r.Some? ==>
      2 * r.value * |list| - |list| <= 2 * Sum(list, DaysOf) < 2 * r.value * |list| + |list|
  {
    if |list| == 0 then None else Some(RoundedMean(Sum(list, DaysOf), |list|))
  }

  /** The report's own list of overdue accounts. */
  function MockOutstanding(): seq<Outstanding> {
    [ Outstanding("John Kamau", 2500, 5, "10Mbps Premium"),
      Outstanding("Mary Wanjiku", 1500, 12, "5Mbps Basic"),
      Outstanding("Peter Otieno", 4000, 25, "20Mbps Business"),
      Outstanding("Jane Mwangi", 3000, 8, "15Mbps Home Plus") ]
  }

  /** On the report's own list: 11000 outstanding over 4 accounts, and the mean of
      12.5 days shows as 13 because halves round up. */
  lemma MockFigures()
    ensures TotalOutstanding(MockOutstanding()) == 11000
    ensures OverdueAccounts(MockOutstanding()) == 4
    ensures AverageDaysOverdue(MockOutstanding()) == Some(13)
  {
    MockTotal();
    MockAverage();
  }

  lemma MockTotal()
    ensures Sum(MockOutstanding(), AmountOf) == 11000
  {
    MockSum(AmountOf, 2500, 1500, 4000, 3000);
  }

  lemma MockAverage()
    ensures AverageDaysOverdue(MockOutstanding()) == Some(13)
  {
    MockSum(DaysOf, 5, 12, 25, 8);
    assert RoundedMean(50, 4) == 13;
  }

  lemma MockSum(f: Outstanding -> int, a: int, b: int, c: int, d: int)
    requires var s := MockOutstanding(); f(s[0]) == a && f(s[1]) == b && f(s[2]) == c && f(s[3]) == d
    ensures Sum(MockOutstanding(), f) == a + b + c + d
  {
    var s := MockOutstanding();
    assert s[3..][1..] == [];
    assert s[2..][1..] == s[3..];
    assert s[1..][1..] == s[2..];
    assert Sum(s[3..], f) == d;
    assert Sum(s[2..], f) == c + d;
    assert Sum(s[1..], f) == b + c + d;
  }
}

=== FILE: seqs.dfy ===
/** The array operations the dashboard's screens are built from: `filter` with a
    predicate, `reduce` summing one numeric field, and the order-preserving
    subsequence relation that every `filter` result stands in to its input. */
module Seqs {

  /** `s.filter(keep)`: the elements that satisfy `keep`, in their original order. */
  function Filter<T>(s: seq<T>, keep: T -> bool): (r: seq<T>)
    ensures |r| <= |s|
    ensures forall x :: x in r ==> x in s && keep(x)
  {
    if |s| == 0 then [] else (if keep(s[0]) then [s[0]] else []) + Filter(s[1..], keep)
  }

  /** The negation of a filter predicate. */
  function Not<T>(keep: T -> bool): T -> bool {
    x => !keep(x)
  }

  /** `s.reduce((sum, x) => sum + f(x), 0)`. */
  function Sum<T>(s: seq<T>, f: T -> int): int {
    if |s| == 0 then 0 else f(s[0]) + Sum(s[1..], f)
  }

  /** `a` is obtained from `b` by deleting elements, without reordering. */
  predicate IsSubsequence<T(==)>(a: seq<T>, b: seq<T>)
    decreases |b|
  {
    |a| == 0 || (|b| > 0 && ((a[0] == b[0] && IsSubsequence(a[1..], b[1..])) || IsSubsequence(a, b[1..])))
  }

  /** A filter keeps each element as often as it occurs in the input when the
      element satisfies the predicate, and never otherwise. */
  lemma {:induction false} FilterMultiplicity<T>(s: seq<T>, keep: T -> bool, x: T)
    ensures multiset(Filter(s, keep))[x] == if keep(x) then multiset(s)[x] else 0
  {
    if |s| > 0 {
      FilterMultiplicity(s[1..], keep, x);
      assert s == [s[0]] + s[1..];
    }
  }

  /** An element is in the filtered sequence exactly when it is in the input and
      satisfies the predicate. */
  lemma FilterMembership<T>(s: seq<T>, keep: T -> bool, x: T)
    ensures x in Filter(s, keep) <==> x in s && keep(x)
  {
    FilterMultiplicity(s, keep, x);
    assert x in Filter(s, keep) <==> multiset(Filter(s, keep))[x] > 0;
    assert x in s <==> multiset(s)[x] > 0;
  }

  /** `FilterMembership` for every element at once. */
  lemma FilterMembershipAll<T>(s: seq<T>, keep: T -> bool)
    ensures forall x :: x in Filter(s, keep) <==> x in s && keep(x)
  {
    forall x
      ensures x in Filter(s, keep) <==> x in s && keep(x)
    {
      FilterMembership(s, keep, x);
    }
  }

  /** `FilterMultiplicity` for every element at once. */
  lemma FilterMultiplicityAll<T>(s: seq<T>, keep: T -> bool)
    ensures forall x :: multiset(Filter(s, keep))[x] == if keep(x) then multiset(s)[x] else 0
  {
    forall x
      ensures multiset(Filter(s, keep))[x] == if keep(x) then multiset(s)[x] else 0
    {
      FilterMultiplicity(s, keep, x);
    }
  }

  /** A filter preserves the relative order of what it keeps. */
  lemma {:induction false} FilterIsSubsequence<T>(s: seq<T>, keep: T -> bool)
    ensures IsSubsequence(Filter(s, keep), s)
  {
    if |s| > 0 {
      FilterIsSubsequence(s[1..], keep);
      var rest := Filter(s[1..], keep);
      if keep(s[0]) {
        var r := [s[0]] + rest;
        assert r[1..] == rest;
      } else {
        assert Filter(s, keep) == rest;
      }
    }
  }

  /** A predicate that holds of every element filters nothing out. */
  lemma {:induction false} FilterKeepsAll<T>(s: seq<T>, keep: T -> bool)
    requires forall i :: 0 <= i < |s| ==> keep(s[i])
    ensures Filter(s, keep) == s
  {
    if |s| > 0 {
      FilterKeepsAll(s[1..], keep);
      assert s == [s[0]] + s[1..];
    }
  }

  /** A predicate that holds of no element filters everything out. */
  lemma {:induction false} FilterKeepsNone<T>(s: seq<T>, keep: T -> bool)
    requires forall i :: 0 <= i < |s| ==> !keep(s[i])
    ensures Filter(s, keep) == []
  {
    if |s| > 0 {
      FilterKeepsNone(s[1..], keep);
    }
  }

  /** Predicates that agree on every element filter alike. */
  lemma {:induction false} FilterCongruent<T>(s: seq<T>, p: T -> bool, q: T -> bool)
    requires forall i :: 0 <= i < |s| ==> p(s[i]) == q(s[i])
    ensures Filter(s, p) == Filter(s, q)
  {
    if |s| > 0 {
      FilterCongruent(s[1..], p, q);
    }
  }

  /** Filtering distributes over concatenation. */
  lemma {:induction false} FilterConcat<T>(a: seq<T>, b: seq<T>, keep: T -> bool)
    ensures Filter(a + b, keep) == Filter(a, keep) + Filter(b, keep)
  {
    if |a| > 0 {
      assert (a + b)[1..] == a[1..] + b;
      FilterConcat(a[1..], b, keep);
    } else {
      assert a + b == b;
    }
  }

  /** Summing distributes over concatenation. */
  lemma {:induction false} SumConcat<T>(a: seq<T>, b: seq<T>, f: T -> int)
    ensures Sum(a + b, f) == Sum(a, f) + Sum(b, f)
  {
    if |a| > 0 {
      assert (a + b)[1..] == a[1..] + b;
      SumConcat(a[1..], b, f);
    } else {
      assert a + b == b;
    }
  }

  /** The sum over the elements that satisfy a predicate and the sum over those
      that do not add up to the whole sum. */
  lemma {:induction false} SumPartition<T>(s: seq<T>, f: T -> int, keep: T -> bool)
    ensures Sum(s, f) == Sum(Filter(s, keep), f) + Sum(Filter(s, Not(keep)), f)
  {
    if |s| > 0 {
      SumPartition(s[1..], f, keep);
      var yes := if keep(s[0]) then [s[0]] else [];
      var no := if Not(keep)(s[0]) then [s[0]] else [];
      SumConcat(yes, Filter(s[1..], keep), f);
      SumConcat(no, Filter(s[1..], Not(keep)), f);
    }
  }

  /** A sum of non-negative terms is non-negative. */
  lemma {:induction false} SumNonNegative<T>(s: seq<T>, f: T -> int)
    requires forall i :: 0 <= i < |s| ==> f(s[i]) >= 0
    ensures Sum(s, f) >= 0
  {
    if |s| > 0 {
      SumNonNegative(s[1..], f);
    }
  }

  /** The conjunction of two filter predicates. */
  function Both<T>(p: T -> bool, q: T -> bool): T -> bool {
    x => p(x) && q(x)
  }

  /** Filtering twice is filtering once by the conjunction. */
  lemma {:induction false} FilterFilter<T>(s: seq<T>, p: T -> bool, q: T -> bool)
    ensures Filter(Filter(s, p), q) == Filter(s, Both(p, q))
  {
    if |s| > 0 {
      FilterFilter(s[1..], p, q);
      var head := if p(s[0]) then [s[0]] else [];
      FilterConcat(head, Filter(s[1..], p), q);
      if p(s[0]) {
        assert Filter(head, q) == if q(s[0]) then [s[0]] else [];
      }
    }
  }

  /** The elements kept and the elements dropped together make up the input. */
  lemma {:induction false} FilterCountPartition<T>(s: seq<T>, keep: T -> bool)
    ensures |Filter(s, keep)| + |Filter(s, Not(keep))| == |s|
  {
    if |s| > 0 {
      FilterCountPartition(s[1..], keep);
    }
  }

  /** Replacing one element changes how many are kept by at most that element. */
  lemma FilterReplaceOne<T>(s: seq<T>, k: nat, x: T, keep: T -> bool)
    requires k < |s|
    ensures |Filter(s[k := x], keep)|
         == |Filter(s, keep)| - (if keep(s[k]) then 1 else 0) + (if keep(x) then 1 else 0)
  {
    var t := s[k := x];
    assert s == s[..k] + [s[k]] + s[k + 1..];
    assert t == s[..k] + [x] + s[k + 1..];
    FilterConcat(s[..k] + [s[k]], s[k + 1..], keep);
    FilterConcat(s[..k], [s[k]], keep);
    FilterConcat(s[..k] + [x], s[k + 1..], keep);
    FilterConcat(s[..k], [x], keep);
    assert [s[k]][1..] == [] && [x][1..] == [];
  }

  /** Sequences whose elements agree pointwise on `f` have the same sum. */
  lemma {:induction false} SumPointwise<T>(s: seq<T>, t: seq<T>, f: T -> int)
    requires |s| == |t|
    requires forall i :: 0 <= i < |s| ==> f(s[i]) == f(t[i])
    ensures Sum(s, f) == Sum(t, f)
  {
    if |s| > 0 {
      SumPointwise(s[1..], t[1..], f);
    }
  }
}

=== FILE: strings.dfy ===
/** ASCII text helpers behind the dashboard's identifiers and searches: decimal
    rendering (`String(n)`) and parsing (`parseInt` on digit strings), zero padding
    (`padStart`), sequence-numbered ids such as `PAY-004`, ASCII case mapping and
    substring search (`includes`). */
module Strings {
  import opened Wrappers

  // ---------------------------------------------------------------------------
  // Decimal digits
  // ---------------------------------------------------------------------------

  predicate IsDigit(c: char) {
    '0' <= c <= '9'
  }

  /** Every character of `s` is a decimal digit; the empty string qualifies. */
  predicate IsDecimal(s: string) {
    forall i :: 0 <= i < |s| ==> IsDigit(s[i])
  }

  function DigitValue(c: char): (d: nat)
    requires IsDigit(c)
    ensures d < 10
  {
    (c as int) - ('0' as int)
  }

  function DigitChar(d: nat): (c: char)
    requires d < 10
    ensures IsDigit(c) && DigitValue(c) == d
  {
    (('0' as int) + d) as char
  }

  function Pow10(k: nat): (p: nat)
    ensures p >= 1
  {
    if k == 0 then 1 else 10 * Pow10(k - 1)
  }

  /** `String(n)` for a non-negative integer: the shortest decimal rendering,
      with no leading zero except for `0` itself. */
  function NatToDecimal(n: nat): (s: string)
    ensures |s| >= 1 && IsDecimal(s)
    ensures s[0] == '0' ==> n == 0
    decreases n
  {
    if n < 10 then [DigitChar(n)] else NatToDecimal(n / 10) + [DigitChar(n % 10)]
  }

  /** `parseInt(s)` restricted to strings of decimal digits (most significant
      digit first); the value is bounded by the number of digits. */
  function ParseDecimal(s: string): (n: nat)
    requires IsDecimal(s)
    ensures n < Pow10(|s|)
  {
    if |s| == 0 then 0 else 10 * ParseDecimal(s[..|s| - 1]) + DigitValue(s[|s| - 1])
  }

  /** Parsing undoes rendering. */
  lemma {:induction false} DecimalRoundTrip(n: nat)
    ensures ParseDecimal(NatToDecimal(n)) == n
    decreases n
  {
    if n >= 10 {
      var s := NatToDecimal(n);
      assert s[..|s| - 1] == NatToDecimal(n / 10);
      DecimalRoundTrip(n / 10);
    }
  }

  /** Distinct numbers render differently. */
  lemma DecimalInjective(a: nat, b: nat)
    ensures NatToDecimal(a) == NatToDecimal(b) <==> a == b
  {
    DecimalRoundTrip(a);
    DecimalRoundTrip(b);
  }

  /** Powers of ten are ordered like their exponents. */
  lemma {:induction false} Pow10Order(x: nat, y: nat)
    requires Pow10(x) < Pow10(y)
    ensures x < y
    decreases x
  {
    if x > 0 {
      assert y > 0;
      Pow10Order(x - 1, y - 1);
    }
  }

  /** Two digit strings of the same length with the same value are the same string. */
  lemma {:induction false} ParseInjectiveSameLength(s: string, t: string)
    requires IsDecimal(s) && IsDecimal(t) && |s| == |t|
    requires ParseDecimal(s) == ParseDecimal(t)
    ensures s == t
    decreases |s|
  {
    if |s| > 0 {
      var s', t' := s[..|s| - 1], t[..|t| - 1];
      assert DigitValue(s[|s| - 1]) == DigitValue(t[|t| - 1]);
      ParseInjectiveSameLength(s', t');
      assert s == s' + [s[|s| - 1]];
      assert t == t' + [t[|t| - 1]];
    }
  }

  /** Digit strings without a leading zero that have the same value have the same length. */
  lemma SameValueSameLength(s: string, t: string)
    requires IsDecimal(s) && |s| >= 1 && s[0] != '0'
    requires IsDecimal(t) && |t| >= 1 && t[0] != '0'
    requires ParseDecimal(s) == ParseDecimal(t)
    ensures |s| == |t|
  {
    LeadingDigitBound(s);
    LeadingDigitBound(t);
    Pow10Order(|s| - 1, |t|);
    Pow10Order(|t| - 1, |s|);
  }

  /** Rendering undoes parsing for a digit string without a leading zero. */
  lemma RenderUndoesParse(s: string)
    requires IsDecimal(s) && |s| >= 1 && s[0] != '0'
    ensures NatToDecimal(ParseDecimal(s)) == s
  {
    var n := ParseDecimal(s);
    var d := NatToDecimal(n);
    DecimalRoundTrip(n);
    LeadingDigitBound(s);
    SameValueSameLength(d, s);
    ParseInjectiveSameLength(d, s);
  }

  // ---------------------------------------------------------------------------
  // Zero padding
  // ---------------------------------------------------------------------------

  function Repeat(c: char, k: nat): string {
    seq(k, _ => c)
  }

  /** `s.padStart(width, fill)` for a one-character fill string: `s` preceded by
      as many copies of `fill` as it takes to reach `width` characters. */
  function PadStart(s: string, width: nat, fill: char): (r: string)
    ensures |r| == if |s| < width then width else |s|
    ensures r[|r| - |s|..] == s
    ensures forall i :: 0 <= i < |r| - |s| ==> r[i] == fill
  {
    if |s| >= width then s else Repeat(fill, width - |s|) + s
  }

  lemma {:induction false} ZerosParseToZero(k: nat)
    ensures IsDecimal(Repeat('0', k)) && ParseDecimal(Repeat('0', k)) == 0
  {
    if k > 0 {
      assert Repeat('0', k)[..k - 1] == Repeat('0', k - 1);
      ZerosParseToZero(k - 1);
    }
  }

  /** Leading zeros do not change the parsed value. */
  lemma {:induction false} LeadingZerosIgnored(k: nat, s: string)
    requires IsDecimal(s)
    ensures IsDecimal(Repeat('0', k) + s)
    ensures ParseDecimal(Repeat('0', k) + s) == ParseDecimal(s)
    decreases |s|
  {
    var t := Repeat('0', k) + s;
    if |s| == 0 {
      assert t == Repeat('0', k);
      ZerosParseToZero(k);
    } else {
      assert t[..|t| - 1] == Repeat('0', k) + s[..|s| - 1];
      LeadingZerosIgnored(k, s[..|s| - 1]);
    }
  }

  /** `String(n).padStart(3, '0')`, the sequence number inside every generated id. */
  function Pad3(n: nat): string {
    PadStart(NatToDecimal(n), 3, '0')
  }

  /** The padded number is all digits, at least three long, and parses back to `n`. */
  lemma Pad3RoundTrip(n: nat)
    ensures |Pad3(n)| >= 3
    ensures IsDecimal(Pad3(n))
    ensures ParseDecimal(Pad3(n)) == n
  {
    var d := NatToDecimal(n);
    DecimalRoundTrip(n);
    if |d| < 3 {
      LeadingZerosIgnored(3 - |d|, d);
    }
  }

  /** Numbers below 1000 pad to exactly three characters; larger ones are not cut. */
  lemma Pad3Width(n: nat)
    ensures |Pad3(n)| == 3 <==> n < 1000
  {
    var d := NatToDecimal(n);
    DecimalRoundTrip(n);
    assert Pow10(3) == 1000;
    if |d| <= 3 {
      Pow10Monotone(|d|, 3);
    } else {
      LeadingDigitBound(d);
      Pow10Monotone(3, |d| - 1);
    }
  }

  lemma {:induction false} Pow10Monotone(a: nat, b: nat)
    requires a <= b
    ensures Pow10(a) <= Pow10(b)
    decreases b
  {
    if a < b {
      Pow10Monotone(a, b - 1);
    }
  }

  /** A decimal string whose first digit is not zero has a value of at least 10^(|s|-1). */
  lemma {:induction false} LeadingDigitBound(s: string)
    requires |s| >= 1 && IsDecimal(s) && s[0] != '0'
    ensures ParseDecimal(s) >= Pow10(|s| - 1)
    decreases |s|
  {
    if |s| > 1 {
      var p := s[..|s| - 1];
      assert p[0] == s[0];
      LeadingDigitBound(p);
    } else {
      assert DigitValue(s[0]) >= 1;
    }
  }

  // ---------------------------------------------------------------------------
  // Sequence-numbered identifiers: `${prefix}${String(n).padStart(3, '0')}`
  // ---------------------------------------------------------------------------

  function SeqId(prefix: string, n: nat): string {
    prefix + Pad3(n)
  }

  /** Reads the sequence number back out of an identifier that carries `prefix`. */
  function SequenceNumber(prefix: string, id: string): (r: Option<nat>)
    ensures r.Some? ==> |id| > |prefix| && id[..|prefix|] == prefix
  {
    if |id| > |prefix| && id[..|prefix|] == prefix && IsDecimal(id[|prefix|..])
    then Some(ParseDecimal(id[|prefix|..]))
    else None
  }

  /** Every generated id yields back the number it was generated from. */
  lemma SeqIdRoundTrip(prefix: string, n: nat)
    ensures SequenceNumber(prefix, SeqId(prefix, n)) == Some(n)
  {
    var id := SeqId(prefix, n);
    Pad3RoundTrip(n);
    assert id[..|prefix|] == prefix;
    assert id[|prefix|..] == Pad3(n);
  }

  /** Two ids with the same prefix are equal exactly when their numbers are. */
  lemma SeqIdInjective(prefix: string, a: nat, b: nat)
    ensures SeqId(prefix, a) == SeqId(prefix, b) <==> a == b
  {
    SeqIdRoundTrip(prefix, a);
    SeqIdRoundTrip(prefix, b);
  }

  // ---------------------------------------------------------------------------
  // ASCII case mapping
  // ---------------------------------------------------------------------------

  predicate IsUpperLetter(c: char) {
    'A' <= c <= 'Z'
  }

  predicate IsLowerLetter(c: char) {
    'a' <= c <= 'z'
  }

  function LowerChar(c: char): (r: char)
    ensures !IsUpperLetter(r)
  {
    if IsUpperLetter(c) then (c as int + 32) as char else c
  }

  function UpperChar(c: char): (r: char)
    ensures !IsLowerLetter(r)
  {
    if IsLowerLetter(c) then (c as int - 32) as char else c
  }

  /** `toLowerCase` restricted to ASCII letters. */
  function ToLower(s: string): (r: string)
    ensures |r| == |s|
    ensures forall i :: 0 <= i < |r| ==> !IsUpperLetter(r[i])
    ensures forall i :: 0 <= i < |s| && !IsUpperLetter(s[i]) ==> r[i] == s[i]
    ensures forall i :: 0 <= i < |s| && IsUpperLetter(s[i]) ==> IsLowerLetter(r[i]) && UpperChar(r[i]) == s[i]
  {
    seq(|s|, i requires 0 <= i < |s| => LowerChar(s[i]))
  }

  /** `toUpperCase` restricted to ASCII letters. */
  function ToUpper(s: string): (r: string)
    ensures |r| == |s|
    ensures forall i :: 0 <= i < |r| ==> !IsLowerLetter(r[i])
    ensures forall i :: 0 <= i < |s| && !IsLowerLetter(s[i]) ==> r[i] == s[i]
    ensures forall i :: 0 <= i < |s| && IsLowerLetter(s[i]) ==> IsUpperLetter(r[i]) && LowerChar(r[i]) == s[i]
  {
    seq(|s|, i requires 0 <= i < |s| => UpperChar(s[i]))
  }

  /** Lowercasing forgets the original case: a string and its upper-cased form
      lowercase alike, and lowercasing twice is lowercasing once. */
  lemma LowerForgetsCase(s: string)
    ensures ToLower(ToUpper(s)) == ToLower(s)
    ensures ToLower(ToLower(s)) == ToLower(s)
  {
  }

  // ---------------------------------------------------------------------------
  // Substring search: `s.includes(t)`
  // ---------------------------------------------------------------------------

  predicate IsPrefix(t: string, s: string) {
    |t| <= |s| && s[..|t|] == t
  }

  /** `s.includes(t)`: `t` is a prefix of some suffix of `s`. */
  predicate Contains(s: string, t: string)
    decreases |s|
  {
    IsPrefix(t, s) || (|s| > 0 && Contains(s[1..], t))
  }

  /** `t` occurs in `s` starting at position `i`. */
  ghost predicate OccursAt(s: string, t: string, i: nat) {
    i + |t| <= |s| && s[i..i + |t|] == t
  }

  /** The recursive search agrees with the positional definition of an occurrence. */
  lemma {:induction false} ContainsIffOccurs(s: string, t: string)
    ensures Contains(s, t) <==> exists i: nat :: OccursAt(s, t, i)
    decreases |s|
  {
    if |s| > 0 {
      ContainsIffOccurs(s[1..], t);
    }
    if Contains(s, t) {
      if IsPrefix(t, s) {
        assert OccursAt(s, t, 0);
      } else {
        var i: nat :| OccursAt(s[1..], t, i);
        assert s[1..][i..i + |t|] == s[i + 1..i + 1 + |t|];
        assert OccursAt(s, t, i + 1);
      }
    }
    if exists i: nat :: OccursAt(s, t, i) {
      var i: nat :| OccursAt(s, t, i);
      if i == 0 {
        assert IsPrefix(t, s);
      } else {
        assert s[1..][i - 1..i - 1 + |t|] == s[i..i + |t|];
        assert OccursAt(s[1..], t, i - 1);
      }
    }
  }

  /** An occurrence at a known position is found by the search. */
  lemma ContainsAt(s: string, t: string, i: nat)
    requires OccursAt(s, t, i)
    ensures Contains(s, t)
  {
    ContainsIffOccurs(s, t);
  }

  /** A string contains each of the parts it is concatenated from. */
  lemma ContainsPart(a: string, t: string, b: string)
    ensures Contains(a + t + b, t)
  {
    var s := a + t + b;
    assert s[|a|..|a| + |t|] == t;
    ContainsAt(s, t, |a|);
  }

  /** Every string contains the empty string. */
  lemma ContainsEmpty(s: string)
    ensures Contains(s, "")
  {
    assert IsPrefix("", s);
  }
}

=== FILE: wrappers.dfy ===
/** The optional-value datatype used where the dashboard's code may find nothing
    (a lookup that misses, an average of an empty list). */
module Wrappers {
  datatype Option<+T> = None | Some(value: T)
}
